=== FILE: README.md ===
# Honeypot rate-limit blocker, modelled in Dafny

The honeypot is two cooperating programs that share a directory.

- **The web app** (`app.py`) refuses every client whose IP is listed in
  `blacklist.txt` with a fixed 401 response. For every other request it
  appends a JSON record (IP, user agent, method, path, headers, and a
  timestamp to the second) to `logs/<ip>/client_info.json`. A request that
  reaches the `/` page is recorded twice: once by the `before_request` hook
  and once more by the page's view.
- **The scanner** (`security.py`) periodically reads every IP's log. It
  drops lines that are not JSON and splits the records into GET and POST
  requests. For each method it reports every second that holds more than 20
  requests. An IP with any such second is appended to `blacklist.txt`,
  unless it is already listed.

The model has one Dafny module per concern:

| module | file | models |
|---|---|---|
| `Text` | `text.dfy` | Python's `str.strip()` and the line pieces a text file is read as |
| `Timestamps` | `timestamps.dfy` | `strptime`/`strftime` with `%Y-%m-%d %H:%M:%S`, and calendar validity |
| `Requests` | `requests.dfy` | a decoded record and Python's `req[key]`, `==` and `parse_timestamp` on it, with their exceptions |
| `RateLimit` | `ratelimit.dfy` | `check_rate_limits`, as a method with loops and as the functions it is proved against |
| `Blocklist` | `blocklist.dfy` | `blacklist.txt` as text, `load_blacklist`, and `add_to_blacklist` as a class method |
| `Scanner` | `scanner.dfy` | `check_logs`: reading, filtering, evaluating and blocking, IP by IP |
| `Honeypot` | `honeypot.dfy` | `is_blacklisted`, `check_blacklist`, `log_client_info`, `save_client_info`, and the hook chain |

**Files and inputs.** The blocklist file is a `TextFile`, either `Absent` or
`Present(text)`. Its loaded set is the set of stripped, non-empty pieces
between line breaks. The log directory is a map from the IP directory name to
the lines of its `client_info.json`. `os.listdir`'s order is a parameter.
`json.loads` and `json.dump` are parameters (`decode`, `encode`). The clock
readings of `datetime.now()` are parameters too.

**Errors.** These exceptions the scan can raise while evaluating an IP are
modelled:
- `KeyError` for a record without `method` or `timestamp`;
- `TypeError` for a record that is not an object, or a timestamp that is not
  a string;
- `ValueError` for a timestamp in another format or on a day the calendar
  does not have.

Any of these ends that IP's evaluation and leaves the blocklist as it was, as
`except Exception` does. Exceptions that `json.loads` raises other than
`JSONDecodeError` are not modelled (see "Left out").

**Preconditions.** `add_to_blacklist` is an idempotent set insert when
two conditions hold (they are sufficient, not necessary: an identity already
loaded is left alone on any file):
- the file ends at a line boundary, which is true of every file the program
  writes itself;
- the IP is non-empty, has no surrounding whitespace and fits on one line.

The lemmas that promise a set insert require both. `AddToUnterminatedFile`
shows what happens when the file does not end at a line boundary.

**The file only grows.** `blacklist.txt` is only ever opened for reading or
for appending. `Extends(g, f)` says that `g` still starts with everything `f`
held. `AddEntry`, `ApplyVerdict`, `ScanIp` and `ScanFile` all promise it.

## Model

| member | source | states |
|---|---|---|
| Text.StripIdempotent | security.py:13 | stripping a line twice gives the same result as stripping it once, so a loaded identity reads back as itself |
| Text.PiecesAppendTerminated | security.py:12-13 | text appended after a line break is read as its own lines, after the existing ones, with the existing lines unchanged |
| Text.Strip | security.py:13 | a stripped line is never longer than the line; what it is exactly is `StripDropsOnlyEnds` with `StripEnds` |
| Text.StripDropsOnlyEnds | security.py:13 | a stripped line is a slice of the line with only whitespace cut off before and after it; with `StripEnds` (no whitespace left at either end) it is the line without all of its leading and trailing whitespace, so a padded ` 1.2.3.4` loads as `1.2.3.4` |
| Text.StripEnds | security.py:13 | a stripped line is empty or neither starts nor ends with whitespace |
| Text.Pieces | security.py:12 | a text always yields at least one piece (an empty file yields one empty piece, which strips to nothing); what the pieces are is `PiecesJoin` with `PiecesBreakFree` |
| Text.PiecesJoin | security.py:12 | the pieces are the text cut at its `\n` and `\r` boundaries: one more piece than boundaries, and putting the boundaries back between them gives the text |
| Text.PiecesBreakFree | security.py:12 | no piece contains a `\n` or `\r`, so a piece never spans two lines |
| Text.PiecesOfTerminatedLine | security.py:12-13 | a line ended by `\n` or by `\r` reads as that line followed by an empty piece, whichever of the two ends it |
| Timestamps.ParseTimestamp | security.py:7-8 | anything `strptime` accepts is a real second: a year from 1 to 9999, a day that exists in that month (leap years included), and no second 60 |
| Timestamps.FormatStamp | security.py:30 | the `strftime` text of a real second has the exact shape the parser accepts: digits in the field positions, separators between them; `ParseFormat` proves it parses back |
| Timestamps.ParseFormat | security.py:7-8 | the text the recorder writes for a second parses back to that same second |
| Timestamps.FormatParse | security.py:29-30 | every accepted text is exactly the `strftime` key of the second it parses to, so grouping by the key string and grouping by the parsed second agree |
| Timestamps.FormatInjective | security.py:30 | two seconds have the same key exactly when they are the same second |
| Requests.Lookup | security.py:69 | `req[key]` succeeds exactly on an object that has the key; otherwise it raises `KeyError` for an object and `TypeError` for anything else |
| Requests.MethodIs | security.py:69 | `req['method'] == m` raises only where the subscript raises, and is true exactly when the field is the string `m` (a number or null compares false) |
| Requests.StampOf | security.py:29 | a timestamp that parses is always a real calendar second; `StampOfText` says exactly when one parses |
| Requests.StampOfText | security.py:29 | a record's second is found exactly when its `timestamp` is a string that parses, and its key is then that very string |
| RateLimit.RateViolations | security.py:25-42 | no requests give an empty report; the report's soundness, completeness and failure cases are `ViolationsSound`, `ViolationsComplete`, `ViolationsFail` and `ViolationsExist` |
| RateLimit.FirstStampError | security.py:28-29 | the grouping loop raises exactly when some request's timestamp fails to parse, and then reports the first such failure |
| RateLimit.SecondsSpec | security.py:27-35 | the second loop visits each second at most once, and visits exactly the seconds that have requests |
| RateLimit.ViolationsSound | security.py:35-41 | every violation has a count strictly above the threshold; its count is the number of requests it carries; those requests are all the input requests of that second, in input order; no second appears twice |
| RateLimit.ViolationsComplete | security.py:35-41 | every second holding more than `threshold` requests is reported |
| RateLimit.ViolationsFail | security.py:28-29 | the detector fails exactly when some request's timestamp fails to parse |
| RateLimit.ViolationsExist | security.py:34-42 | the report is non-empty exactly when some second holds more than `threshold` requests |
| RateLimit.BucketsPartition | security.py:27-31 | the buckets partition the input: their sizes add up to the number of requests |
| RateLimit.BucketMembers | security.py:27-31 | a second's bucket holds only requests of the input whose timestamp parses to that second, so requests of different seconds never share a bucket |
| RateLimit.OneSecondBurst | security.py:36 | requests that all share one second give exactly one violation when there are more than `threshold` of them, and none otherwise: 21 at threshold 20 give one, 20 give none |
| RateLimit.TwoSecondsWithinLimit | security.py:27-36 | requests from two seconds, in any order, give no violation when each second's bucket stays within the threshold, however many requests they hold together: there is no sliding window |
| RateLimit.GroupedSnoc | security.py:31 | `requests_by_second[key].append(req)` keeps every bucket equal to its second's requests, and the keys in first-seen order |
| RateLimit.CheckRateLimits | security.py:25-42 | the two loops compute exactly the specified report (or its exception); empty input gives an empty report |
| Blocklist.LoadBlacklist | security.py:10-14 | a missing file loads as the empty set, and an empty or blank line is never loaded; `LoadedAreClean` and `Honeypot.BlacklistedIff` state the rest |
| Blocklist.AddEntry | security.py:16-23 | afterwards the file exists, and because it is opened for appending it still starts with everything it held before |
| Blocklist.LoadedAreClean | security.py:10-14 | a loaded identity comes from an existing file, is non-empty and has no surrounding whitespace; a missing file loads as the empty set |
| Blocklist.AppendLine | security.py:19-20 | appending a clean identity's line to a file that ends at a line boundary adds exactly that identity to the loaded set, adds one line holding it, and leaves the file ending at a line boundary |
| Blocklist.AddEntryIdempotent | security.py:16-23 | `add_to_blacklist` is an idempotent set insert: afterwards the identity is loaded; a second call leaves the file unchanged; an identity that was absent is now on exactly one line |
| Blocklist.AddToUnterminatedFile | security.py:19-20 | on a file whose last line is a clean identity without a terminator, whatever comes before it, the appended identity is glued onto that line: the glued line is loaded instead of the identity, and the next call appends the identity again |
| Blocklist.BlocklistStore.Add | security.py:16-23 | returns true exactly when the identity was not loaded; the file then gains exactly `ip` plus a newline, and is otherwise unchanged; on a file that ends at a line boundary and a clean identity, the loaded set gains exactly `ip` |
| Scanner.ParseLog | security.py:55-63 | each line yields at most one record, so there are never more records than lines; `DecodeLog`, `ParseLogAppend` and `SkipMalformed` state the rest |
| Scanner.ParseLogAppend | security.py:58-63 | reading a log in two parts yields the records of each part, in order |
| Scanner.SkipMalformed | security.py:59-63 | a line that is not JSON is skipped without disturbing the records of the other lines |
| Scanner.DecodeLog | security.py:55-63 | the reading loop yields exactly the decodable lines' records, in file order |
| Scanner.FilterMethod | security.py:69 | the comprehension raises exactly when some record cannot be subscripted; otherwise it keeps exactly the records whose method is `m`: every kept record is one of them, and every one of them is kept |
| Scanner.FilterAppend | security.py:69 | filtering a concatenation yields the first exception, or the two filtered parts concatenated |
| Scanner.FilterSkip | security.py:69 | a record of another method leaves the filter's outcome unchanged |
| Scanner.Evaluate | security.py:65-74 | the IP is skipped as having no records exactly when no line decoded; `OffendsIff` says when it is blocked |
| Scanner.EvaluateIp | security.py:65-74 | the statements of the `try` block before blocking compute the specified verdict, including which exception ends the IP's evaluation |
| Scanner.OffendsIff | security.py:65-87 | an IP is blocked exactly when three things hold: no record raises; the detector succeeds on both subsets; its GET records or its POST records hold more than 20 requests in some second |
| Scanner.OtherMethodIgnored | security.py:69-74 | inserting a record of another method (PUT, HEAD, …) anywhere in a log never changes whether the IP is blocked, whatever its timestamp |
| Scanner.GetAndPostBurst | security.py:68-87 | more than 20 GET and more than 20 POST requests in the same second are two separate violations, each with its full count |
| Scanner.ApplyVerdict | security.py:77-87 | the file only grows, and an IP without records or whose evaluation raised leaves it as it was |
| Scanner.ApplyVerdictEffect | security.py:77-87 | on a terminated file and a clean IP, the two `add_to_blacklist` calls together act as one call when either subset violates (the second finds the IP already listed), and leave the file as it was otherwise |
| Scanner.ScanIp | security.py:46-90 | one directory entry's pass only ever appends to the file |
| Scanner.ScanIpEffect | security.py:77-87 | one IP's pass appends at most one line, even when both subsets violate; an IP with no records, or whose evaluation raised, leaves the file unchanged |
| Scanner.ScanIpLoad | security.py:54-90 | one IP's pass adds that IP to the loaded blocklist exactly when its records offend |
| Scanner.OffendersMembers | security.py:45-52 | the offenders are exactly the listed IPs that have a log and whose records offend |
| Scanner.ScanFile | security.py:44-90 | a whole pass only ever appends to the file: it still starts with everything it held before |
| Scanner.ScanBlocksOffenders | security.py:44-90 | after a pass, the loaded blocklist is the old one plus exactly the offending IPs, and the file still ends at a line boundary |
| Scanner.CheckLogs | security.py:44-90 | the pass over the directory, IP by IP, leaves the blocklist file as specified, and the store's set stays that file's loaded set |
| Honeypot.IsBlacklisted | app.py:26-27 | a blocked IP means the file exists and the IP is non-empty: a missing file blocks nobody |
| Honeypot.BlacklistedIff | app.py:20-27 | an IP is blocked exactly when it equals some stripped non-empty line of an existing file; a missing file blocks nobody; a blocked IP has no surrounding whitespace |
| Honeypot.CheckBlacklist | app.py:60-69 | the gate answers exactly when the IP is blocked, with status 401, mimetype `text/plain` and the fixed refusal text |
| Honeypot.LogClientInfo | app.py:41-58 | the record's timestamp parses back to the clock reading's second; the record carries the request's IP, method, path and headers; its user agent is present exactly when the request has a `User-Agent` header, and is then that header's value |
| Honeypot.RecordReadable | app.py:42-49 | the scanner reads a recorded request back with the request's method, the second it was recorded in, its IP and its path |
| Honeypot.ToJson | app.py:42-49 | the record `json.dump` writes is an object with exactly the six keys `ip`, `user_agent`, `method`, `path`, `headers` and `timestamp` |
| Honeypot.AppendRecord | app.py:29-39 | saving appends exactly one line to the client's log, creates the log if it is missing, and leaves every other log as it was |
| Honeypot.LogStore.Save | app.py:29-39 | the store's logs become the old logs with the serialised record appended to the client's log |
| Honeypot.Route | app.py:71-72 | the `/` view runs exactly for GET and HEAD requests to `/` |
| Honeypot.Served | app.py:60-79 | a request changes no log but its client's, and creates no log but its client's |
| Honeypot.HandleRequest | app.py:60-79 | the hooks run in registration order: a blocked client gets the 401 refusal and nothing is recorded; otherwise the request is recorded by `before_request`, and once more by the view when it reaches `/` |
| Honeypot.ServedCount | app.py:60-79 | a refused client's log is unchanged; an admitted client's log gains two lines for a `/` page and one line for any other request, and keeps its old lines; no other log changes |
| Honeypot.ServedReadBack | app.py:71-79 | given an encoder whose lines decode back, the scanner reads one record per recorded line, in order: the hook's record, then, for a request that reaches the `/` view, the view's; a GET of `/` thus adds two GET records, stamped with the seconds of the hook's and the view's clock readings |

## Left out

- `json.loads` and `json.dump` are parameters. `ServedReadBack` assumes the encoder's line decodes back to the record it encoded. Numbers, booleans and arrays are all represented by one `JOther` value. The encoder is assumed to write one line per record, since `json.dump` escapes newlines.
- Timestamps.ParseTimestamp: accepts only the strict 19-character form with ASCII digits. Python's `strptime` also accepts one-digit month, day and time fields, a day padded with a space instead of a zero (`2024-01- 5 12:00:00`), runs of whitespace where the format has one space, and non-ASCII decimal digits. The recorder never writes those, but a hand-edited log could contain them.
- Scanner.DecodeLog: `decode` either returns a record or skips the line, as `except json.JSONDecodeError` does. `json.loads` can also raise other exceptions: a `ValueError` for an integer literal longer than the interpreter's digit limit, and a `RecursionError` for very deep nesting. The source's outer `except Exception` catches those and abandons the IP's evaluation. The model does not capture that outcome. The recorder never writes such lines.
- Timestamps.FormatStamp: pads years below 1000 to four digits, while the platform `strftime` may not; `datetime.now()` never yields such a year.
- RateLimit.CheckRateLimits: a violation carries the parsed second rather than its `strftime` key string. `FormatInjective` and `FormatParse` make the two interchangeable.
- Honeypot.LogClientInfo: reads `User-Agent` by exact name from a plain map, so case-insensitive lookup and repeated headers are not modelled. `remote_addr` is always a string here, never `None`.
- Honeypot.Route: models only which requests reach the `/` view (GET and HEAD on `/`). Flask's automatic OPTIONS answer, 404, 405, trailing-slash redirects and `render_template` are reduced to reply tags.
- The log directory map holds only the entries `os.listdir` returns that are directories containing `client_info.json`. The scanner skips the other entries, and here they are simply absent from the map. The logs are given already split into lines; how Python splits a log file into lines is not modelled.
- Filesystem failures are not modelled: a missing `logs` directory, permission errors, `UnicodeDecodeError`, and an `OSError` while appending to `blacklist.txt`. The IP used as a path component (`os.path.join('logs', ip)`) is not checked for separators.
- `logging` and `print` output, the `__main__` loop with `time.sleep(5)`, and the `logs` directory creation at import time have no effect on the state modelled here.
- The app and the scanner run concurrently and race on `blacklist.txt` and the logs. The model is sequential: each request and each pass is one atomic step.
- Blocklist.AddEntryIdempotent, Blocklist.AppendLine, Scanner.ScanIpEffect, Scanner.ScanIpLoad and Scanner.ScanBlocksOffenders require a file that ends at a line boundary and IPs that are non-empty, unpadded and on one line. Blocklist.AddToUnterminatedFile states what happens when the last line is a clean identity without a terminator; other unterminated last lines (a blank one, for instance, after which the identity is loaded) are not covered by any lemma.

=== FILE: blocklist.dfy ===
/**
 * The blocklist store, `blacklist.txt`: one identity per line, read back as
 * the set of stripped non-empty lines, extended by appending a line after a
 * membership check.
 */
module Blocklist {
  import opened Text
  import opened Seqs

  /** The file on disk: missing, or present with its full text. */
  datatype TextFile = Absent | Present(text: string)

  /** `f` applied to every element of `ps`. */
  function MapSeq(f: string -> string, ps: seq<string>): (ss: seq<string>)
    ensures |ss| == |ps|
  {
    if ps == [] then [] else MapSeq(f, ps[..|ps| - 1]) + [f(ps[|ps| - 1])]
  }

  /** `line.strip()` for every line. */
  function StripAll(ps: seq<string>): seq<string>
  {
    MapSeq(Strip, ps)
  }

  /** The stripped lines of a file's text. */
  function StrippedLines(text: string): seq<string>
  {
    StripAll(Pieces(text))
  }

  /** The non-empty elements of `ss`. */
  function Entries(ss: seq<string>): set<string>
  {
    set x | x in ss && x != ""
  }

  /**
   * `load_blacklist()`: the set of stripped non-empty lines, and the empty
   * set when the file does not exist (fail-open).
   */
  function LoadBlacklist(f: TextFile): (r: set<string>)
    ensures f.Absent? ==> r == {}
    ensures "" !in r
  {
    match f
    case Absent => {}
    case Present(text) => Entries(StrippedLines(text))
  }

  /**
   * A loaded identity is a non-empty line with no whitespace at either end;
   * a missing file loads as the empty set.
   */
  lemma LoadedAreClean(f: TextFile, x: string)
    requires x in LoadBlacklist(f)
    ensures f.Present? && x != "" && Strip(x) == x
  {
    StrippedAreStripped(Pieces(f.text));
  }

  lemma {:induction false} MapSeqMember(f: string -> string, ps: seq<string>, x: string)
    requires x in MapSeq(f, ps)
    ensures exists p :: p in ps && x == f(p)
  {
    var q := ps[..|ps| - 1];
    if x in MapSeq(f, q) {
      MapSeqMember(f, q, x);
      var p :| p in q && x == f(p);
      assert p in ps;
    } else {
      assert x == f(ps[|ps| - 1]);
    }
  }

  lemma {:induction false} MapSeqAt(f: string -> string, ps: seq<string>, i: int)
    requires 0 <= i < |ps|
    ensures MapSeq(f, ps)[i] == f(ps[i])
  {
    if i < |ps| - 1 {
      MapSeqAt(f, ps[..|ps| - 1], i);
    }
  }

  lemma StrippedAreStripped(ps: seq<string>)
    ensures forall x :: x in StripAll(ps) ==> Strip(x) == x
  {
    forall x | x in StripAll(ps) ensures Strip(x) == x {
      MapSeqMember(Strip, ps, x);
      var p :| p in ps && x == Strip(p);
      StripIdempotent(p);
    }
  }

  /** The file ends at a line boundary (or is empty or missing), as every file this store writes does. */
  predicate Terminated(f: TextFile) {
    f.Absent? || f.text == [] || IsBreak(f.text[|f.text| - 1])
  }

  /** An identity that reads back as itself from its own line: non-empty, unpadded, one line. */
  predicate Clean(ip: string) {
    ip != "" && Strip(ip) == ip && forall i :: 0 <= i < |ip| ==> !IsBreak(ip[i])
  }

  /** Opening the file in append mode and writing `s`: creates the file when it is missing. */
  function Appended(f: TextFile, s: string): TextFile
  {
    match f
    case Absent => Present(s)
    case Present(text) => Present(text + s)
  }

  /** The file only grows: whatever `f` held is still at the start of `g`. */
  predicate Extends(g: TextFile, f: TextFile) {
    f.Present? ==> g.Present? && |f.text| <= |g.text| && g.text[..|f.text|] == f.text
  }

  /**
   * The effect of `add_to_blacklist(ip)` on the file: it exists afterwards,
   * and it is opened for appending only, so it keeps what it held.
   */
  function AddEntry(f: TextFile, ip: string): (g: TextFile)
    ensures g.Present? && Extends(g, f)
  {
    if ip in LoadBlacklist(f) then f else Appended(f, ip + "\n")
  }

  /** How many of the stripped lines `ss` equal `ip`. */
  function CountEntries(ss: seq<string>, ip: string): nat
  {
    if ss == [] then 0
    else CountEntries(ss[..|ss| - 1], ip) + (if ss[|ss| - 1] == ip then 1 else 0)
  }

  /** How many lines of the file strip to `ip`. */
  function FileCount(f: TextFile, ip: string): nat
  {
    match f
    case Absent => 0
    case Present(text) => CountEntries(StrippedLines(text), ip)
  }

  lemma {:induction false} MapSeqAppend(f: string -> string, a: seq<string>, b: seq<string>)
    ensures MapSeq(f, a + b) == MapSeq(f, a) + MapSeq(f, b)
  {
    if b == [] {
      AppendEmpty(a);
      AppendEmpty(MapSeq(f, a));
    } else {
      var p := b[..|b| - 1];
      DropLastAppend(a, b);
      MapSeqAppend(f, a, p);
      AppendAssoc(MapSeq(f, a), MapSeq(f, p), [f(b[|b| - 1])]);
    }
  }

  lemma MapSeqOne(f: string -> string, x: string)
    ensures MapSeq(f, [x]) == [f(x)]
  {
    assert [x][..0] == [];
  }

  lemma EntriesAppend(a: seq<string>, b: seq<string>)
    ensures Entries(a + b) == Entries(a) + Entries(b)
  {
  }

  lemma {:induction false} CountAppend(a: seq<string>, b: seq<string>, ip: string)
    ensures CountEntries(a + b, ip) == CountEntries(a, ip) + CountEntries(b, ip)
  {
    if b == [] {
      AppendEmpty(a);
    } else {
      DropLastAppend(a, b);
      CountAppend(a, b[..|b| - 1], ip);
    }
  }

  /** A non-empty identity is loaded exactly when some line strips to it. */
  lemma {:induction false} CountMembership(ss: seq<string>, ip: string)
    requires ip != ""
    ensures CountEntries(ss, ip) > 0 <==> ip in Entries(ss)
  {
    if ss != [] {
      var q := ss[..|ss| - 1];
      CountMembership(q, ip);
      assert ss == q + [ss[|ss| - 1]];
    }
  }

  /** The stripped lines of one clean line with its terminator: the line, then an empty piece. */
  lemma StrippedLine(ip: string)
    requires Clean(ip)
    ensures StrippedLines(ip + "\n") == [ip, ""]
  {
    PiecesOfTerminatedLine(ip, '\n');
    MapSeqTwo(Strip, ip, "");
    StripOfStripped("");
  }

  lemma MapSeqTwo(f: string -> string, x: string, y: string)
    ensures MapSeq(f, [x, y]) == [f(x), f(y)]
  {
    assert [x, y][..1] == [x];
    MapSeqOne(f, x);
  }

  /** A clean identity alone on a line, terminated or not, loads as itself. */
  lemma LoadSingleLine(ip: string)
    requires Clean(ip)
    ensures LoadBlacklist(Present(ip + "\n")) == {ip}
    ensures LoadBlacklist(Present(ip)) == {ip}
  {
    StrippedLine(ip);
    assert Entries([ip, ""]) == {ip};
    PiecesOfLine(ip);
    MapSeqOne(Strip, ip);
    assert Entries([ip]) == {ip};
  }

  /** Text appended after a line boundary adds its own stripped lines after the existing ones. */
  lemma StrippedLinesAppend(a: string, b: string)
    requires a != [] && IsBreak(a[|a| - 1])
    ensures var sa := StrippedLines(a);
      |sa| >= 1 && sa[|sa| - 1] == "" && StrippedLines(a + b) == sa[..|sa| - 1] + StrippedLines(b)
  {
    var pa := Pieces(a);
    PiecesAppendTerminated(a, b);
    var init := pa[..|pa| - 1];
    assert pa == init + [""];
    MapSeqAppend(Strip, init, [""]);
    MapSeqAppend(Strip, init, Pieces(b));
    MapSeqOne(Strip, "");
    StripOfStripped("");
  }

  /** The loaded entries and counts of a line's stripped pieces. */
  lemma LinePieces(ip: string)
    requires ip != ""
    ensures Entries([ip, ""]) == {ip} && Entries([""]) == {}
    ensures CountEntries([ip, ""], ip) == 1 && CountEntries([""], ip) == 0
  {
    assert [ip, ""][..1] == [ip] && [ip][..0] == [] && [""][..0] == [];
    assert CountEntries([ip], ip) == 1;
    assert CountEntries([""], ip) == 0;
  }

  /** Appending a clean identity's line to non-empty terminated text. */
  lemma AppendLineToText(text: string, ip: string)
    requires text != [] && IsBreak(text[|text| - 1]) && Clean(ip)
    ensures Entries(StrippedLines(text + (ip + "\n"))) == Entries(StrippedLines(text)) + {ip}
    ensures CountEntries(StrippedLines(text + (ip + "\n")), ip) == CountEntries(StrippedLines(text), ip) + 1
  {
    StrippedLinesAppend(text, ip + "\n");
    StrippedLine(ip);
    var sa := StrippedLines(text);
    var init := sa[..|sa| - 1];
    assert sa == init + [""];
    EntriesAppend(init, [ip, ""]);
    EntriesAppend(init, [""]);
    CountAppend(init, [ip, ""], ip);
    CountAppend(init, [""], ip);
    LinePieces(ip);
  }

  /**
   * Appending the line for a clean identity to a terminated file adds exactly
   * that identity to the loaded set, adds one line holding it, and leaves
   * the file terminated.
   */
  lemma AppendLine(f: TextFile, ip: string)
    requires Terminated(f) && Clean(ip)
    ensures var g := Appended(f, ip + "\n");
      && LoadBlacklist(g) == LoadBlacklist(f) + {ip}
      && FileCount(g, ip) == FileCount(f, ip) + 1
      && Terminated(g)
  {
    var g := Appended(f, ip + "\n");
    if f.Absent? || f.text == [] {
      LinePieces(ip);
      if f.Present? {
        assert f.text + (ip + "\n") == ip + "\n";
        assert StrippedLines(f.text) == [""] by { MapSeqOne(Strip, ""); StripOfStripped(""); }
      }
      assert g.text == ip + "\n";
      StrippedLine(ip);
    } else {
      AppendLineToText(f.text, ip);
    }
    assert g.text[|g.text| - 1] == '\n';
  }

  /**
   * `add_to_blacklist` on a terminated file is an idempotent set insert:
   * afterwards the identity is loaded, the file is still terminated, a second
   * call changes nothing, and the file holds the identity on exactly one line
   * if it held it on none before.
   */
  lemma AddEntryIdempotent(f: TextFile, ip: string)
    requires Terminated(f) && Clean(ip)
    ensures var g := AddEntry(f, ip);
      && LoadBlacklist(g) == LoadBlacklist(f) + {ip}
      && Terminated(g)
      && AddEntry(g, ip) == g
      && (ip !in LoadBlacklist(f) ==> FileCount(g, ip) == 1)
  {
    if ip in LoadBlacklist(f) {
      AddListed(f, ip);
    } else {
      AddUnlisted(f, ip);
      AddListed(AddEntry(f, ip), ip);
    }
  }

  /** Adding an identity that is already loaded leaves the file alone. */
  lemma AddListed(f: TextFile, ip: string)
    requires ip in LoadBlacklist(f)
    ensures AddEntry(f, ip) == f && LoadBlacklist(f) + {ip} == LoadBlacklist(f)
  {
  }

  /** Adding an identity that is not loaded appends its line, which then loads once. */
  lemma AddUnlisted(f: TextFile, ip: string)
    requires Terminated(f) && Clean(ip) && ip !in LoadBlacklist(f)
    ensures var g := AddEntry(f, ip);
      && LoadBlacklist(g) == LoadBlacklist(f) + {ip}
      && Terminated(g)
      && FileCount(g, ip) == 1
  {
    assert AddEntry(f, ip) == Appended(f, ip + "\n");
    AppendLine(f, ip);
    if f.Present? {
      CountMembership(StrippedLines(f.text), ip);
    }
  }

  /**
   * The append does not start a new line: when the file's last line has no
   * terminator, a new identity is glued to that line, so it is not loaded
   * afterwards (the glued line is) and the next call appends it again.
   */
  lemma AddToUnterminatedFile(text: string, line: string, ip: string)
    requires Terminated(Present(text)) && Clean(line) && Clean(ip) && ip != line
    requires ip !in LoadBlacklist(Present(text))
    ensures var g := AddEntry(Present(text + line), ip);
      && g == Present(text + line + ip + "\n")
      && LoadBlacklist(g) == LoadBlacklist(Present(text)) + {line + ip}
      && ip !in LoadBlacklist(g)
      && AddEntry(g, ip) == Present(text + line + ip + "\n" + ip + "\n")
  {
    var glued := line + ip;
    Regroup(text, line, ip, "\n");
    LoadSingleLine(line);
    LoadAfterTerminated(text, line);
    CleanConcat(line, ip);
    LoadSingleLine(glued);
    LoadAfterTerminated(text, glued + "\n");
    assert ip != glued by { assert |glued| > |ip|; }
  }

  lemma Regroup(text: string, line: string, ip: string, nl: string)
    ensures (text + line) + (ip + nl) == text + (line + ip + nl) == text + line + ip + nl
    ensures text + (line + ip + nl) + (ip + nl) == text + line + ip + nl + ip + nl
  {
  }

  /** An empty line adds no entry. */
  lemma EntriesDropEmpty(init: seq<string>)
    ensures Entries(init + [""]) == Entries(init)
  {
    EntriesAppend(init, [""]);
    assert Entries([""]) == {};
  }

  /** An empty file loads as the empty set. */
  lemma LoadEmpty()
    ensures LoadBlacklist(Present("")) == {}
  {
    assert StrippedLines("") == [""] by { MapSeqOne(Strip, ""); StripOfStripped(""); }
    assert Entries([""]) == {};
  }

  /** Whatever follows a line boundary loads as if it were a file of its own. */
  lemma LoadAfterTerminated(text: string, tail: string)
    requires Terminated(Present(text))
    ensures LoadBlacklist(Present(text + tail)) == LoadBlacklist(Present(text)) + LoadBlacklist(Present(tail))
  {
    if text == [] {
      AppendEmpty(tail);
      LoadEmpty();
    } else {
      StrippedLinesAppend(text, tail);
      var sa := StrippedLines(text);
      var init := sa[..|sa| - 1];
      SplitLast(sa);
      EntriesDropEmpty(init);
      EntriesAppend(init, StrippedLines(tail));
    }
  }

  /** Two clean identities written one after the other read as one clean identity. */
  lemma CleanConcat(a: string, b: string)
    requires Clean(a) && Clean(b)
    ensures Clean(a + b)
  {
    var c := a + b;
    StripEnds(a);
    StripEnds(b);
    assert c[0] == a[0] && c[|c| - 1] == b[|b| - 1];
    StripOfStripped(c);
    assert forall i :: 0 <= i < |c| ==> c[i] == (if i < |a| then a[i] else b[i - |a|]);
  }

  /** The store: `blacklist.txt`, with the set it loads to kept alongside. */
  class BlocklistStore {
    var file: TextFile
    ghost var Contents: set<string>

    ghost predicate Valid()
      reads this
    {
      Contents == LoadBlacklist(file)
    }

    constructor (initial: TextFile)
      ensures Valid() && file == initial
    {
      file := initial;
      Contents := LoadBlacklist(initial);
    }

    /**
     * `add_to_blacklist(ip)`: re-reads the file, and appends `ip` on a line of
     * its own only when it is not already loaded; returns whether it did.
     */
    method Add(ip: string) returns (added: bool)
      requires Valid()
      modifies this
      ensures Valid()
      ensures added <==> ip !in old(Contents)
      ensures file == AddEntry(old(file), ip)
      ensures file == if added then Appended(old(file), ip + "\n") else old(file)
      ensures Terminated(old(file)) && Clean(ip) ==> Contents == old(Contents) + {ip} && Terminated(file)
    {
      var blacklist := LoadBlacklist(file);
      if ip !in blacklist {
        if Terminated(file) && Clean(ip) {
          AppendLine(file, ip);
        }
        file := Appended(file, ip + "\n");
        Contents := LoadBlacklist(file);
        return true;
      }
      return false;
    }
  }
}

=== FILE: honeypot.dfy ===
/**
 * The honeypot web app: a gate that turns away blocklisted clients, and a
 * recorder that appends one JSON record per request to the client's log,
 * run as Flask `before_request` hooks ahead of the `/` view.
 */
module Honeypot {
  import opened Wrappers
  import opened Text
  import opened Timestamps
  import opened Requests
  import opened Blocklist
  import opened Scanner
  import opened Seqs

  /** The parts of an incoming request the app reads. */
  datatype Request = Request(remoteAddr: string, verb: string, path: string, headers: map<string, string>)

  /** The record `log_client_info` builds. */
  datatype ClientInfo = ClientInfo(
    ip: string,
    userAgent: Option<string>,
    verb: string,
    path: string,
    headers: map<string, string>,
    timestamp: string)

  /** The fixed refusal the gate sends. */
  datatype Response = Response(status: int, mimetype: string, body: string)

  const DeniedBody := "Access Denied: Your IP has been blacklisted due to suspicious activity."

  /** `is_blacklisted(ip)`: membership in the loaded blocklist, the same loader the scanner uses. */
  predicate IsBlacklisted(f: TextFile, ip: string)
    ensures IsBlacklisted(f, ip) ==> f.Present? && ip != ""
  {
    ip in LoadBlacklist(f)
  }

  /**
   * An IP is blocked iff it equals some stripped, non-empty line of the
   * file; a missing file blocks nobody.
   */
  lemma BlacklistedIff(f: TextFile, ip: string)
    ensures IsBlacklisted(f, ip) <==>
      f.Present? && ip != "" && exists i :: 0 <= i < |Pieces(f.text)| && Strip(Pieces(f.text)[i]) == ip
    ensures IsBlacklisted(f, ip) ==> Strip(ip) == ip
  {
    if IsBlacklisted(f, ip) {
      LoadedAreClean(f, ip);
      var ss := StrippedLines(f.text);
      var k :| 0 <= k < |ss| && ss[k] == ip;
      MapSeqAt(Strip, Pieces(f.text), k);
      assert 0 <= k < |Pieces(f.text)| && Strip(Pieces(f.text)[k]) == ip;
    }
    if f.Present? && ip != "" && exists i :: 0 <= i < |Pieces(f.text)| && Strip(Pieces(f.text)[i]) == ip {
      var i :| 0 <= i < |Pieces(f.text)| && Strip(Pieces(f.text)[i]) == ip;
      LineBlacklisted(f.text, ip, i);
    }
  }

  /** A line that strips to a non-empty `ip` blocks `ip`. */
  lemma LineBlacklisted(text: string, ip: string, i: int)
    requires ip != "" && 0 <= i < |Pieces(text)| && Strip(Pieces(text)[i]) == ip
    ensures IsBlacklisted(Present(text), ip)
  {
    MapSeqAt(Strip, Pieces(text), i);
    assert StrippedLines(text)[i] == ip;
  }

  /** `check_blacklist`: the 401 refusal exactly for a blocked client, nothing otherwise. */
  function CheckBlacklist(f: TextFile, ip: string): (r: Option<Response>)
    ensures r.Some? <==> IsBlacklisted(f, ip)
    ensures r.Some? ==> r.value.status == 401 && r.value.mimetype == "text/plain" && r.value.body == DeniedBody
  {
    if IsBlacklisted(f, ip) then Some(Response(401, "text/plain", DeniedBody)) else None
  }

  /**
   * `log_client_info()` at clock reading `now`: the record of the request,
   * stamped with `now` to the second in the form the scanner parses back.
   */
  function LogClientInfo(req: Request, now: Stamp): (info: ClientInfo)
    requires Valid(now)
    ensures ParseTimestamp(info.timestamp) == Some(now)
    ensures info.ip == req.remoteAddr && info.verb == req.verb
    ensures info.path == req.path && info.headers == req.headers
    ensures info.userAgent.Some? <==> "User-Agent" in req.headers
    ensures info.userAgent.Some? ==> info.userAgent.value == req.headers["User-Agent"]
  {
    ParseFormat(now);
    ClientInfo(req.remoteAddr,
               if "User-Agent" in req.headers then Some(req.headers["User-Agent"]) else None,
               req.verb, req.path, req.headers, FormatStamp(now))
  }

  /** The JSON object `json.dump` writes for a record. */
  function ToJson(info: ClientInfo): (j: Json)
    ensures j.JObject? && j.fields.Keys == {"ip", "user_agent", "method", "path", "headers", "timestamp"}
  {
    JObject(map[
      "ip" := JString(info.ip),
      "user_agent" := (match info.userAgent case Some(a) => JString(a) case None => JNull),
      "method" := JString(info.verb),
      "path" := JString(info.path),
      "headers" := JObject(map k | k in info.headers :: JString(info.headers[k])),
      "timestamp" := JString(info.timestamp)])
  }

  /**
   * The scanner reads a recorded request back as a record of the request's
   * method, in the second it was recorded.
   */
  lemma RecordReadable(req: Request, now: Stamp, m: string)
    requires Valid(now)
    ensures MethodIs(ToJson(LogClientInfo(req, now)), m) == Success(req.verb == m)
    ensures StampOf(ToJson(LogClientInfo(req, now))) == Success(now)
    ensures Lookup(ToJson(LogClientInfo(req, now)), "ip") == Success(JString(req.remoteAddr))
    ensures Lookup(ToJson(LogClientInfo(req, now)), "path") == Success(JString(req.path))
  {
    var j := ToJson(LogClientInfo(req, now));
    assert j.fields["timestamp"] == JString(FormatStamp(now));
    ParseFormat(now);
  }

  /** The lines of `ip`'s log, none when it has no log yet. */
  function LogLines(logs: map<string, seq<string>>, ip: string): seq<string> {
    if ip in logs then logs[ip] else []
  }

  /** The logs after appending `line` to the log of `ip`, creating that log if needed. */
  function AppendRecord(logs: map<string, seq<string>>, ip: string, line: string): (r: map<string, seq<string>>)
    ensures ip in r && LogLines(r, ip) == LogLines(logs, ip) + [line]
    ensures forall other :: other != ip ==> LogLines(r, other) == LogLines(logs, other)
    ensures r.Keys == logs.Keys + {ip}
  {
    logs[ip := LogLines(logs, ip) + [line]]
  }

  /**
   * The log directory as the app writes it: one line per record, the
   * record's `json.dump` output (`encode`) without the newline written after it.
   */
  class LogStore {
    var logs: map<string, seq<string>>

    constructor (initial: map<string, seq<string>>)
      ensures logs == initial
    {
      logs := initial;
    }

    /**
     * `save_client_info`: append exactly one line to the client's log,
     * creating it if absent; every other log is left as it was.
     */
    method Save(info: ClientInfo, encode: Json -> string)
      modifies this
      ensures logs == AppendRecord(old(logs), info.ip, encode(ToJson(info)))
    {
      var lines := if info.ip in logs then logs[info.ip] else [];
      logs := logs[info.ip := lines + [encode(ToJson(info))]];
    }
  }

  /** What the app answers a request with. */
  datatype Reply =
    | Denied(response: Response)   // `check_blacklist` returned a response
    | IndexPage                    // the `/` view answered
    | AutomaticOptions             // Flask's own answer to OPTIONS on `/`
    | MethodNotAllowed             // `/` with another method
    | NotFound                     // any other path

  /** The `/` view runs for GET and HEAD, its route's methods. */
  predicate RoutesToIndex(req: Request) {
    req.path == "/" && (req.verb == "GET" || req.verb == "HEAD")
  }

  /** The answer once every `before_request` hook has returned nothing. */
  function Route(req: Request): (r: Reply)
    ensures r == IndexPage <==> RoutesToIndex(req)
    ensures !r.Denied?
  {
    if req.path != "/" then NotFound
    else if req.verb == "GET" || req.verb == "HEAD" then IndexPage
    else if req.verb == "OPTIONS" then AutomaticOptions
    else MethodNotAllowed
  }

  /**
   * The logs after serving `req` with blocklist file `f`, with clock readings
   * `now1` in the `before_request` hook and `now2` in the view.
   */
  function Served(logs: map<string, seq<string>>, f: TextFile, req: Request, now1: Stamp, now2: Stamp,
                  encode: Json -> string): (r: map<string, seq<string>>)
    requires Valid(now1) && Valid(now2)
    ensures r.Keys <= logs.Keys + {req.remoteAddr}
    ensures forall ip :: ip != req.remoteAddr ==> LogLines(r, ip) == LogLines(logs, ip)
  {
    if IsBlacklisted(f, req.remoteAddr) then logs
    else
      var hooked := AppendRecord(logs, req.remoteAddr, encode(ToJson(LogClientInfo(req, now1))));
      if RoutesToIndex(req) then AppendRecord(hooked, req.remoteAddr, encode(ToJson(LogClientInfo(req, now2))))
      else hooked
  }

  /**
   * Handling one request: the hooks in registration order, `check_blacklist`
   * then `before_request`, the first response short-circuiting the rest,
   * then routing.
   */
  method HandleRequest(store: LogStore, f: TextFile, req: Request, now1: Stamp, now2: Stamp,
                       encode: Json -> string) returns (reply: Reply)
    requires Valid(now1) && Valid(now2)
    modifies store
    ensures reply.Denied? <==> IsBlacklisted(f, req.remoteAddr)
    ensures reply.Denied? ==> reply.response == Response(401, "text/plain", DeniedBody)
    ensures !reply.Denied? ==> reply == Route(req)
    ensures store.logs == Served(old(store.logs), f, req, now1, now2, encode)
  {
    var refusal := CheckBlacklist(f, req.remoteAddr);
    if refusal.Some? {
      return Denied(refusal.value);
    }
    store.Save(LogClientInfo(req, now1), encode);
    reply := Route(req);
    if reply == IndexPage {
      store.Save(LogClientInfo(req, now2), encode);
    }
  }

  /**
   * A refused client is never recorded; an admitted one gets two new lines
   * for a `/` page and one for anything else, and no other log changes.
   */
  lemma ServedCount(logs: map<string, seq<string>>, f: TextFile, req: Request, now1: Stamp, now2: Stamp,
                    encode: Json -> string)
    requires Valid(now1) && Valid(now2)
    ensures var after := Served(logs, f, req, now1, now2, encode);
      && |LogLines(after, req.remoteAddr)| == |LogLines(logs, req.remoteAddr)|
           + (if IsBlacklisted(f, req.remoteAddr) then 0 else if RoutesToIndex(req) then 2 else 1)
      && LogLines(after, req.remoteAddr)[..|LogLines(logs, req.remoteAddr)|] == LogLines(logs, req.remoteAddr)
      && forall other :: other != req.remoteAddr ==> LogLines(after, other) == LogLines(logs, other)
  {
    if !IsBlacklisted(f, req.remoteAddr) {
      var ip := req.remoteAddr;
      var line1 := encode(ToJson(LogClientInfo(req, now1)));
      AppendKeeps(logs, ip, line1);
      if RoutesToIndex(req) {
        var hooked := AppendRecord(logs, ip, line1);
        AppendKeeps(hooked, ip, encode(ToJson(LogClientInfo(req, now2))));
        PrefixOfPrefix(LogLines(logs, ip), LogLines(hooked, ip), LogLines(Served(logs, f, req, now1, now2, encode), ip));
      }
    }
  }

  /** Saving a line keeps the client's old lines as the start of its log. */
  lemma AppendKeeps(logs: map<string, seq<string>>, ip: string, line: string)
    ensures var lines := LogLines(AppendRecord(logs, ip, line), ip);
      |lines| == |LogLines(logs, ip)| + 1 && lines[..|LogLines(logs, ip)|] == LogLines(logs, ip)
  {
  }

  /**
   * What the scanner reads from an admitted client's log after one request,
   * when the encoder's line decodes back to the record: one record per
   * recorded line, each of the request's method. A GET of `/` adds two GET
   * records, stamped with the seconds of the hook's and the view's clock
   * readings.
   */
  lemma {:induction false} ServedReadBack(logs: map<string, seq<string>>, f: TextFile, req: Request,
                                          now1: Stamp, now2: Stamp, encode: Json -> string,
                                          decode: string -> Option<Json>)
    requires Valid(now1) && Valid(now2)
    requires !IsBlacklisted(f, req.remoteAddr)
    requires forall info: ClientInfo :: decode(Strip(encode(ToJson(info)))) == Some(ToJson(info))
    ensures ParseLog(LogLines(Served(logs, f, req, now1, now2, encode), req.remoteAddr), decode)
      == ParseLog(LogLines(logs, req.remoteAddr), decode)
         + [ToJson(LogClientInfo(req, now1))]
         + (if RoutesToIndex(req) then [ToJson(LogClientInfo(req, now2))] else [])
  {
    var old_ := LogLines(logs, req.remoteAddr);
    var r1, r2 := ToJson(LogClientInfo(req, now1)), ToJson(LogClientInfo(req, now2));
    var l1, l2 := encode(r1), encode(r2);
    assert decode(Strip(l1)) == Some(r1);
    assert decode(Strip(l2)) == Some(r2);
    ParseLogAppend(old_, [l1], decode);
    assert ParseLog([l1], decode) == [r1] by { assert [l1][..0] == []; }
    if RoutesToIndex(req) {
      ParseLogAppend(old_ + [l1], [l2], decode);
      assert ParseLog([l2], decode) == [r2] by { assert [l2][..0] == []; }
    } else {
      assert ParseLog(old_, decode) + [r1] + [] == ParseLog(old_, decode) + [r1];
    }
  }
}

=== FILE: ratelimit.dfy ===
/**
 * The rate-violation detector: `check_rate_limits` groups requests by the
 * second they were received in and reports every second that holds more
 * than `threshold` of them.
 */
module RateLimit {
  import opened Wrappers
  import opened Timestamps
  import opened Requests
  import opened Seqs

  /** The default `threshold` of `check_rate_limits`. */
  const DefaultThreshold := 20

  /** One reported burst: the second, the number of requests in it, and those requests. */
  datatype Violation = Violation(second: Stamp, count: int, requests: seq<Json>)

  /** The exception, if any, that the grouping loop raises: the first request whose timestamp does not parse. */
  function FirstStampError(rs: seq<Json>): (r: Option<ScanError>)
    ensures r.None? <==> forall i :: 0 <= i < |rs| ==> StampOf(rs[i]).Success?
  {
    if rs == [] then None
    else
      match StampOf(rs[0])
      case Failure(e) => Some(e)
      case Success(_) => FirstStampError(rs[1..])
  }

  /** The requests of `rs` received in second `t`, in input order: `requests_by_second[t]`. */
  function Bucket(rs: seq<Json>, t: Stamp): (b: seq<Json>)
    ensures |b| <= |rs|
  {
    if rs == [] then []
    else
      var last := rs[|rs| - 1];
      Bucket(rs[..|rs| - 1], t) + (if StampOf(last) == Success(t) then [last] else [])
  }

  /** The distinct seconds of `rs` in order of first appearance: the keys of `requests_by_second`. */
  function Seconds(rs: seq<Json>): (ks: seq<Stamp>)
  {
    if rs == [] then []
    else
      var earlier := Seconds(rs[..|rs| - 1]);
      match StampOf(rs[|rs| - 1])
      case Success(t) => if t in earlier then earlier else earlier + [t]
      case Failure(_) => earlier
  }

  /** The violations found among the buckets of seconds `ks`, in the order of `ks`. */
  function Collect(ks: seq<Stamp>, rs: seq<Json>, threshold: int): seq<Violation>
  {
    if ks == [] then []
    else
      var k := ks[|ks| - 1];
      var b := Bucket(rs, k);
      Collect(ks[..|ks| - 1], rs, threshold) + (if |b| > threshold then [Violation(k, |b|, b)] else [])
  }

  /** What `check_rate_limits(rs, threshold)` returns, or the exception it raises. */
  function RateViolations(rs: seq<Json>, threshold: int): (r: Result<seq<Violation>, ScanError>)
    ensures rs == [] ==> r == Success([])
  {
    match FirstStampError(rs)
    case Some(e) => Failure(e)
    case None => Success(Collect(Seconds(rs), rs, threshold))
  }

  /** Sum of the bucket sizes of the seconds `ks`. */
  function SumSizes(ks: seq<Stamp>, rs: seq<Json>): nat
  {
    if ks == [] then 0 else SumSizes(ks[..|ks| - 1], rs) + |Bucket(rs, ks[|ks| - 1])|
  }

  predicate DistinctSeconds(ks: seq<Stamp>) {
    forall i, j :: 0 <= i < j < |ks| ==> ks[i] != ks[j]
  }

  /** No second is reported twice. */
  predicate OncePerSecond(vs: seq<Violation>) {
    forall i, j :: 0 <= i < j < |vs| ==> vs[i].second != vs[j].second
  }

  /**
   * The grouping loop stops at the first request whose timestamp does not
   * parse, and that request's exception is the one raised.
   */
  lemma {:induction false} FirstStampErrorAt(rs: seq<Json>, i: nat)
    requires i < |rs| && StampOf(rs[i]).Failure?
    requires FirstStampError(rs[..i]).None?
    ensures FirstStampError(rs) == Some(StampOf(rs[i]).error)
  {
    if i > 0 {
      assert forall j :: 0 <= j < i ==> rs[..i][j] == rs[j];
      assert rs[1..][..i - 1] == rs[..i][1..];
      FirstStampErrorAt(rs[1..], i - 1);
    }
  }

  /** A request whose timestamp parses, appended to requests that all parse, keeps them all parsing. */
  lemma FirstStampErrorSnoc(rs: seq<Json>, x: Json)
    requires FirstStampError(rs).None? && StampOf(x).Success?
    ensures FirstStampError(rs + [x]).None?
  {
    assert forall j :: 0 <= j < |rs| ==> (rs + [x])[j] == rs[j];
  }

  /** Extending the input by one request extends every bucket by at most that request. */
  lemma BucketSnoc(rs: seq<Json>, x: Json, t: Stamp)
    ensures Bucket(rs + [x], t) == Bucket(rs, t) + (if StampOf(x) == Success(t) then [x] else [])
  {
    assert (rs + [x])[..|rs|] == rs;
  }

  /** Grouping a concatenation groups each part and concatenates the groups. */
  lemma {:induction false} BucketAppend(a: seq<Json>, b: seq<Json>, t: Stamp)
    ensures Bucket(a + b, t) == Bucket(a, t) + Bucket(b, t)
  {
    if b != [] {
      var p, x := b[..|b| - 1], b[|b| - 1];
      assert b == p + [x];
      assert a + b == (a + p) + [x];
      BucketAppend(a, p, t);
      BucketSnoc(a + p, x, t);
      BucketSnoc(p, x, t);
    } else {
      assert a + b == a;
    }
  }

  /**
   * The keys are pairwise distinct, and a second is a key exactly when its
   * bucket is non-empty.
   */
  lemma {:induction false} SecondsSpec(rs: seq<Json>)
    ensures DistinctSeconds(Seconds(rs))
    ensures forall t :: t in Seconds(rs) <==> Bucket(rs, t) != []
  {
    if rs != [] {
      var p, x := rs[..|rs| - 1], rs[|rs| - 1];
      SecondsSpec(p);
      assert forall t :: Bucket(rs, t) == Bucket(p, t) + (if StampOf(x) == Success(t) then [x] else []);
    }
  }

  /** Every collected violation is a bucket strictly over the threshold, reported with its true size. */
  lemma {:induction false} CollectSound(ks: seq<Stamp>, rs: seq<Json>, threshold: int)
    ensures forall v :: v in Collect(ks, rs, threshold) ==>
      v.second in ks && v.count > threshold && v.count == |v.requests| && v.requests == Bucket(rs, v.second)
  {
    if ks != [] {
      CollectSound(ks[..|ks| - 1], rs, threshold);
    }
  }

  /** Every second of `ks` whose bucket is over the threshold is collected. */
  lemma {:induction false} CollectComplete(ks: seq<Stamp>, rs: seq<Json>, threshold: int)
    ensures forall k :: k in ks && |Bucket(rs, k)| > threshold ==>
      exists v :: v in Collect(ks, rs, threshold) && v.second == k
  {
    if ks != [] {
      var p := ks[..|ks| - 1];
      CollectComplete(p, rs, threshold);
      forall k | k in ks && |Bucket(rs, k)| > threshold
        ensures exists v :: v in Collect(ks, rs, threshold) && v.second == k
      {
        if k !in p {
          assert k == ks[|ks| - 1];
          var v := Violation(k, |Bucket(rs, k)|, Bucket(rs, k));
          assert v in Collect(ks, rs, threshold);
        } else {
          var v :| v in Collect(p, rs, threshold) && v.second == k;
          assert v in Collect(ks, rs, threshold);
        }
      }
    }
  }

  /** Collecting over distinct seconds reports each second at most once. */
  lemma {:induction false} CollectDistinct(ks: seq<Stamp>, rs: seq<Json>, threshold: int)
    requires DistinctSeconds(ks)
    ensures OncePerSecond(Collect(ks, rs, threshold))
  {
    if ks != [] {
      var p := ks[..|ks| - 1];
      CollectDistinct(p, rs, threshold);
      CollectSound(p, rs, threshold);
      var vs := Collect(ks, rs, threshold);
      var ps := Collect(p, rs, threshold);
      var k := ks[|ks| - 1];
      var b := Bucket(rs, k);
      assert vs == ps + (if |b| > threshold then [Violation(k, |b|, b)] else []);
      forall i, j | 0 <= i < j < |vs| ensures vs[i].second != vs[j].second {
        if j < |ps| {
          assert vs[i] == ps[i] && vs[j] == ps[j];
        } else {
          assert vs[i] == ps[i] && vs[i] in ps;
          assert vs[j].second == ks[|ks| - 1];
          var m :| 0 <= m < |p| && p[m] == vs[i].second;
          assert ks[m] == p[m] && ks[m] != ks[|ks| - 1];
          assert vs[i].second != vs[j].second;
        }
      }
    }
  }

  /**
   * Soundness: every reported violation is a second whose bucket holds
   * strictly more than `threshold` requests, its count is the number of
   * requests it carries, and those are exactly the input requests of that
   * second in input order. No second is reported twice.
   */
  lemma ViolationsSound(rs: seq<Json>, threshold: int)
    requires RateViolations(rs, threshold).Success?
    ensures var vs := RateViolations(rs, threshold).value;
      && (forall v :: v in vs ==>
            v.count > threshold && v.count == |v.requests| && v.requests == Bucket(rs, v.second))
      && OncePerSecond(vs)
  {
    assert RateViolations(rs, threshold).value == Collect(Seconds(rs), rs, threshold);
    CollectSound(Seconds(rs), rs, threshold);
    SecondsSpec(rs);
    CollectDistinct(Seconds(rs), rs, threshold);
  }

  /** Completeness: every second with requests, more than `threshold` of them, is reported. */
  lemma ViolationsComplete(rs: seq<Json>, threshold: int, t: Stamp)
    ensures RateViolations(rs, threshold).Success? && Bucket(rs, t) != [] && |Bucket(rs, t)| > threshold
      ==> exists v :: v in RateViolations(rs, threshold).value && v.second == t
  {
    if RateViolations(rs, threshold).Success? {
      assert RateViolations(rs, threshold).value == Collect(Seconds(rs), rs, threshold);
      SecondsSpec(rs);
      CollectComplete(Seconds(rs), rs, threshold);
    }
  }

  /** `check_rate_limits` raises exactly when some request's timestamp does not parse. */
  lemma ViolationsFail(rs: seq<Json>, threshold: int)
    ensures RateViolations(rs, threshold).Failure? <==> exists i :: 0 <= i < |rs| && StampOf(rs[i]).Failure?
  {
  }

  /** The non-empty report means some second has more than `threshold` requests, and conversely. */
  lemma ViolationsExist(rs: seq<Json>, threshold: int)
    requires RateViolations(rs, threshold).Success?
    ensures RateViolations(rs, threshold).value != []
      <==> exists t :: Bucket(rs, t) != [] && |Bucket(rs, t)| > threshold
  {
    var vs := RateViolations(rs, threshold).value;
    assert vs == Collect(Seconds(rs), rs, threshold);
    if vs != [] {
      var v := vs[0];
      CollectSound(Seconds(rs), rs, threshold);
      assert v in vs;
      assert v.second in Seconds(rs) && |Bucket(rs, v.second)| > threshold;
      SecondsSpec(rs);
      assert Bucket(rs, v.second) != [];
    } else {
      forall t ensures !(Bucket(rs, t) != [] && |Bucket(rs, t)| > threshold) {
        ViolationsComplete(rs, threshold, t);
      }
    }
  }

  /** Adding one request of second `t` adds one to the total of the buckets when `t` is among `ks`. */
  lemma {:induction false} SumSizesSnoc(ks: seq<Stamp>, rs: seq<Json>, x: Json, t: Stamp)
    requires StampOf(x) == Success(t) && DistinctSeconds(ks)
    ensures SumSizes(ks, rs + [x]) == SumSizes(ks, rs) + (if t in ks then 1 else 0)
  {
    if ks != [] {
      var p, k := ks[..|ks| - 1], ks[|ks| - 1];
      SumSizesSnoc(p, rs, x, t);
      BucketSnoc(rs, x, k);
      assert t in ks <==> t in p || t == k;
      assert t == k ==> t !in p;
    }
  }

  /** A bucket holds only requests of the input, and only those of its own second. */
  lemma {:induction false} BucketMembers(rs: seq<Json>, t: Stamp)
    ensures forall x :: x in Bucket(rs, t) ==> x in rs && StampOf(x) == Success(t)
  {
    if rs != [] {
      BucketMembers(rs[..|rs| - 1], t);
    }
  }

  /**
   * The buckets partition the input: each request lands in the bucket of
   * its own second (`BucketMembers`: requests of different seconds never
   * share one), and the bucket sizes add up to the number of requests.
   */
  lemma {:induction false} BucketsPartition(rs: seq<Json>)
    requires FirstStampError(rs).None?
    ensures SumSizes(Seconds(rs), rs) == |rs|
  {
    if rs != [] {
      var p, x := rs[..|rs| - 1], rs[|rs| - 1];
      assert rs == p + [x];
      assert StampOf(x).Success?;
      var t := StampOf(x).value;
      assert FirstStampError(p).None?;
      BucketsPartition(p);
      SecondsSpec(p);
      SumSizesSnoc(Seconds(p), p, x, t);
      if t !in Seconds(p) {
        BucketSnoc(p, x, t);
        assert Seconds(rs) == Seconds(p) + [t];
        assert (Seconds(p) + [t])[..|Seconds(p)|] == Seconds(p);
      }
    }
  }

  /** When every request shares one second, that second's bucket is the whole input. */
  lemma {:induction false} OneSecondBucket(rs: seq<Json>, t: Stamp)
    requires forall i :: 0 <= i < |rs| ==> StampOf(rs[i]) == Success(t)
    ensures Bucket(rs, t) == rs
    ensures Seconds(rs) == if rs == [] then [] else [t]
  {
    if rs != [] {
      OneSecondBucket(rs[..|rs| - 1], t);
      OneSecondStep(rs, t);
    }
  }

  /** One more request in the same second joins its bucket and adds no second. */
  lemma OneSecondStep(rs: seq<Json>, t: Stamp)
    requires rs != [] && StampOf(rs[|rs| - 1]) == Success(t)
    requires var init := rs[..|rs| - 1];
      Bucket(init, t) == init && Seconds(init) == (if init == [] then [] else [t])
    ensures Bucket(rs, t) == rs && Seconds(rs) == [t]
  {
    var init, last := rs[..|rs| - 1], rs[|rs| - 1];
    SplitLast(rs);
    assert Bucket(rs, t) == init + [last];
    if init != [] {
      assert t in Seconds(init);
    }
  }


  lemma {:induction false} OtherSecondBucket(rs: seq<Json>, t: Stamp, u: Stamp)
    requires forall i :: 0 <= i < |rs| ==> StampOf(rs[i]) == Success(t)
    requires u != t
    ensures Bucket(rs, u) == []
  {
    if rs != [] {
      OtherSecondBucket(rs[..|rs| - 1], t, u);
    }
  }

  /**
   * A burst inside one second is reported once, with its full count, exactly
   * when it is strictly larger than the threshold: at threshold 20, 21
   * requests give one violation and 20 give none.
   */
  lemma OneSecondBurst(rs: seq<Json>, t: Stamp, threshold: int)
    requires forall i :: 0 <= i < |rs| ==> StampOf(rs[i]) == Success(t)
    ensures RateViolations(rs, threshold)
      == Success(if rs != [] && |rs| > threshold then [Violation(t, |rs|, rs)] else [])
  {
    OneSecondBucket(rs, t);
    assert FirstStampError(rs).None?;
    var vs := Collect(Seconds(rs), rs, threshold);
    assert RateViolations(rs, threshold) == Success(vs);
    if rs != [] {
      assert [t][..0] == [];
      var b := Bucket(rs, t);
      assert vs == Collect([], rs, threshold) + (if |b| > threshold then [Violation(t, |b|, b)] else []);
      assert Collect([], rs, threshold) == [] && b == rs;
      assert vs == (if |rs| > threshold then [Violation(t, |rs|, rs)] else []);
    }
  }

  /**
   * Buckets are per second, not a sliding window: requests from two seconds,
   * in any order, give no violation when each second stays within the
   * threshold, however many requests they hold together (15 + 15 at
   * threshold 20).
   */
  lemma TwoSecondsWithinLimit(rs: seq<Json>, t: Stamp, u: Stamp, threshold: int)
    requires forall i :: 0 <= i < |rs| ==> StampOf(rs[i]) == Success(t) || StampOf(rs[i]) == Success(u)
    requires |Bucket(rs, t)| <= threshold && |Bucket(rs, u)| <= threshold
    ensures RateViolations(rs, threshold) == Success([])
  {
    ViolationsFail(rs, threshold);
    forall k ensures !(Bucket(rs, k) != [] && |Bucket(rs, k)| > threshold) {
      if k != t && k != u {
        NoThirdSecond(rs, t, u, k);
      }
    }
    ViolationsExist(rs, threshold);
  }

  /** Requests stamped with two seconds leave every other second's bucket empty. */
  lemma NoThirdSecond(rs: seq<Json>, t: Stamp, u: Stamp, k: Stamp)
    requires forall i :: 0 <= i < |rs| ==> StampOf(rs[i]) == Success(t) || StampOf(rs[i]) == Success(u)
    requires k != t && k != u
    ensures Bucket(rs, k) == []
  {
    BucketMembers(rs, k);
  }

  /** `bySecond` is `requests_by_second` after grouping `rs`, with its keys listed in `order`. */
  ghost predicate Grouped(rs: seq<Json>, bySecond: map<Stamp, seq<Json>>, order: seq<Stamp>) {
    && order == Seconds(rs)
    && (forall t :: t in bySecond <==> t in order)
    && (forall t :: t in bySecond ==> bySecond[t] == Bucket(rs, t))
  }

  /** One step of the grouping loop: `requests_by_second[t].append(x)`. */
  lemma GroupedSnoc(rs: seq<Json>, bySecond: map<Stamp, seq<Json>>, order: seq<Stamp>, x: Json, t: Stamp)
    requires Grouped(rs, bySecond, order) && StampOf(x) == Success(t)
    ensures t in bySecond ==> Grouped(rs + [x], bySecond[t := bySecond[t] + [x]], order)
    ensures t !in bySecond ==> Grouped(rs + [x], bySecond[t := [x]], order + [t])
  {
    if t in bySecond {
      GroupedKeep(rs, bySecond, order, x, t);
    } else {
      GroupedAdd(rs, bySecond, order, x, t);
    }
  }

  lemma GroupedKeep(rs: seq<Json>, bySecond: map<Stamp, seq<Json>>, order: seq<Stamp>, x: Json, t: Stamp)
    requires Grouped(rs, bySecond, order) && StampOf(x) == Success(t) && t in bySecond
    ensures Grouped(rs + [x], bySecond[t := bySecond[t] + [x]], order)
  {
    var m := bySecond[t := bySecond[t] + [x]];
    SecondsSnoc(rs, x, t);
    forall u | u in m ensures m[u] == Bucket(rs + [x], u) {
      BucketSnoc(rs, x, u);
    }
  }

  lemma GroupedAdd(rs: seq<Json>, bySecond: map<Stamp, seq<Json>>, order: seq<Stamp>, x: Json, t: Stamp)
    requires Grouped(rs, bySecond, order) && StampOf(x) == Success(t) && t !in bySecond
    ensures Grouped(rs + [x], bySecond[t := [x]], order + [t])
  {
    var m := bySecond[t := [x]];
    SecondsSnoc(rs, x, t);
    SecondsSpec(rs);
    forall u | u in m ensures m[u] == Bucket(rs + [x], u) {
      BucketSnoc(rs, x, u);
    }
  }

  /** Extending the input by one request adds its second to the keys, unless it is already there. */
  lemma SecondsSnoc(rs: seq<Json>, x: Json, t: Stamp)
    requires StampOf(x) == Success(t)
    ensures Seconds(rs + [x]) == if t in Seconds(rs) then Seconds(rs) else Seconds(rs) + [t]
  {
    assert (rs + [x])[..|rs|] == rs;
  }

  /**
   * `check_rate_limits`: the first loop fills `requests_by_second` (its keys
   * in insertion order), the second walks its items and keeps the buckets
   * over the threshold.
   */
  method CheckRateLimits(requests: seq<Json>, threshold: int) returns (r: Result<seq<Violation>, ScanError>)
    ensures r == RateViolations(requests, threshold)
    ensures requests == [] ==> r == Success([])
  {
    var bySecond: map<Stamp, seq<Json>> := map[];
    var order: seq<Stamp> := [];
    var i := 0;
    while i < |requests|
      invariant 0 <= i <= |requests|
      invariant FirstStampError(requests[..i]).None?
      invariant Grouped(requests[..i], bySecond, order)
    {
      var stamp := StampOf(requests[i]);
      if stamp.Failure? {
        FirstStampErrorAt(requests, i);
        return Failure(stamp.error);
      }
      var t := stamp.value;
      var x := requests[i];
      PrefixSnoc(requests, i);
      FirstStampErrorSnoc(requests[..i], x);
      GroupedSnoc(requests[..i], bySecond, order, x, t);
      if t in bySecond {
        bySecond := bySecond[t := bySecond[t] + [x]];
      } else {
        bySecond := bySecond[t := [x]];
        order := order + [t];
      }
      i := i + 1;
    }
    PrefixAll(requests);

    var violations: seq<Violation> := [];
    var j := 0;
    while j < |order|
      invariant 0 <= j <= |order|
      invariant violations == Collect(order[..j], requests, threshold)
    {
      var second := order[j];
      var reqs := bySecond[second];
      PrefixSnoc(order, j);
      if |reqs| > threshold {
        violations := violations + [Violation(second, |reqs|, reqs)];
      }
      j := j + 1;
    }
    PrefixAll(order);
    return Success(violations);
  }
}

=== FILE: requests.dfy ===
/**
 * Decoded log records as the scanner sees them: whatever `json.loads`
 * returned for one line, and Python's subscript semantics on it.
 */
module Requests {
  import opened Wrappers
  import opened Timestamps

  /** A decoded JSON value; numbers, booleans and arrays are not told apart. */
  datatype Json = JNull | JString(s: string) | JObject(fields: map<string, Json>) | JOther

  /** The exceptions a scan of one IP's records can raise. */
  datatype ScanError =
    | KeyError(key: string)   // `req[key]` on an object without that key
    | TypeError               // subscripting a non-object, or `strptime` of a non-string
    | ValueError(text: string) // `strptime` of a string in another format

  /** `req[key]`. */
  function Lookup(doc: Json, key: string): (r: Result<Json, ScanError>)
    ensures r.Success? <==> doc.JObject? && key in doc.fields
    ensures r.Success? ==> r.value == doc.fields[key]
    ensures r.Failure? ==> r.error == (if doc.JObject? then KeyError(key) else TypeError)
  {
    match doc
    case JObject(fields) => if key in fields then Success(fields[key]) else Failure(KeyError(key))
    case _ => Failure(TypeError)
  }

  /** `req['method'] == m`: a comparison that is false, not an error, for a non-string field. */
  function MethodIs(doc: Json, m: string): (r: Result<bool, ScanError>)
    ensures r.Success? <==> doc.JObject? && "method" in doc.fields
    ensures r.Success? ==> (r.value <==> doc.fields["method"] == JString(m))
  {
    match Lookup(doc, "method")
    case Failure(e) => Failure(e)
    case Success(v) => Success(v == JString(m))
  }

  /** `parse_timestamp(req['timestamp'])`. */
  function StampOf(doc: Json): (r: Result<Stamp, ScanError>)
    ensures r.Success? ==> Valid(r.value)
  {
    match Lookup(doc, "timestamp")
    case Failure(e) => Failure(e)
    case Success(v) =>
      match v
      case JString(text) =>
        (match ParseTimestamp(text)
         case None => Failure(ValueError(text))
         case Some(t) => Success(t))
      case _ => Failure(TypeError)
  }

  /**
   * A record's second is found exactly when it has a `timestamp` string in
   * the recorder's format, and that string is the second's formatted key.
   */
  lemma StampOfText(doc: Json)
    ensures StampOf(doc).Success? <==>
      doc.JObject? && "timestamp" in doc.fields && doc.fields["timestamp"].JString?
      && ParseTimestamp(doc.fields["timestamp"].s).Some?
    ensures StampOf(doc).Success? ==> FormatStamp(StampOf(doc).value) == doc.fields["timestamp"].s
  {
    if StampOf(doc).Success? {
      FormatParse(doc.fields["timestamp"].s);
    }
  }
}

=== FILE: scanner.dfy ===
/**
 * The scan pass, `check_logs`: for every entry of the log directory, read
 * that IP's records, evaluate its GET and POST requests separately with the
 * rate detector, and add the IP to the blocklist once per violating subset.
 */
module Scanner {
  import opened Wrappers
  import opened Text
  import opened Requests
  import opened RateLimit
  import opened Blocklist
  import opened Timestamps
  import opened Seqs

  /**
   * The records of one IP's log: `json.loads(line.strip())` for every line,
   * keeping the ones that decode and skipping the ones that raise
   * `JSONDecodeError`. `decode` stands for `json.loads`.
   */
  function ParseLog(lines: seq<string>, decode: string -> Option<Json>): (r: seq<Json>)
    ensures |r| <= |lines|
  {
    if lines == [] then []
    else
      var earlier := ParseLog(lines[..|lines| - 1], decode);
      match decode(Strip(lines[|lines| - 1]))
      case Some(doc) => earlier + [doc]
      case None => earlier
  }

  /** Reading a log in two parts reads each part. */
  lemma {:induction false} ParseLogAppend(a: seq<string>, b: seq<string>, decode: string -> Option<Json>)
    ensures ParseLog(a + b, decode) == ParseLog(a, decode) + ParseLog(b, decode)
  {
    if b == [] {
      AppendEmpty(a);
      AppendEmpty(ParseLog(a, decode));
    } else {
      var p := b[..|b| - 1];
      DropLastAppend(a, b);
      ParseLogAppend(a, p, decode);
      var d := decode(Strip(b[|b| - 1]));
      AppendAssoc(ParseLog(a, decode), ParseLog(p, decode), if d.Some? then [d.value] else []);
    }
  }

  /**
   * A line that does not decode is skipped without disturbing the others:
   * the records read are those of the log without that line.
   */
  lemma SkipMalformed(a: seq<string>, line: string, b: seq<string>, decode: string -> Option<Json>)
    requires decode(Strip(line)).None?
    ensures ParseLog(a + [line] + b, decode) == ParseLog(a + b, decode)
  {
    ParseLogAppend(a + [line], b, decode);
    ParseLogAppend(a, [line], decode);
    ParseLogAppend(a, b, decode);
    assert [line][..0] == [];
  }

  /** The reading loop of `check_logs`: `requests.append(json.loads(line.strip()))` per decodable line. */
  method DecodeLog(lines: seq<string>, decode: string -> Option<Json>) returns (requests: seq<Json>)
    ensures requests == ParseLog(lines, decode)
  {
    requests := [];
    var i := 0;
    while i < |lines|
      invariant 0 <= i <= |lines|
      invariant requests == ParseLog(lines[..i], decode)
    {
      assert lines[..i + 1][..i] == lines[..i];
      var doc := decode(Strip(lines[i]));
      if doc.Some? {
        requests := requests + [doc.value];
      }
      i := i + 1;
    }
    assert lines[..i] == lines;
  }

  /**
   * `[req for req in requests if req['method'] == m]`: the records with method
   * `m` in log order, or the exception of the first record that has no
   * `method` key or is not an object.
   */
  function FilterMethod(docs: seq<Json>, m: string): (r: Result<seq<Json>, ScanError>)
    ensures r.Failure? <==> exists i :: 0 <= i < |docs| && MethodIs(docs[i], m).Failure?
    ensures r.Success? ==> forall x :: x in r.value ==> x in docs && MethodIs(x, m) == Success(true)
    ensures r.Success? ==> forall x :: x in docs && MethodIs(x, m) == Success(true) ==> x in r.value
  {
    if docs == [] then Success([])
    else
      match MethodIs(docs[0], m)
      case Failure(e) => Failure(e)
      case Success(keep) =>
        match FilterMethod(docs[1..], m)
        case Failure(e) => Failure(e)
        case Success(rest) =>
          assert forall x :: x in rest ==> x in docs;
          Success((if keep then [docs[0]] else []) + rest)
  }

  /** Filtering a concatenation: the first exception, or the concatenated results. */
  lemma {:induction false} FilterAppend(a: seq<Json>, b: seq<Json>, m: string)
    ensures FilterMethod(a + b, m) ==
      match FilterMethod(a, m)
      case Failure(e) => Failure(e)
      case Success(x) =>
        match FilterMethod(b, m)
        case Failure(e) => Failure(e)
        case Success(y) => Success(x + y)
  {
    if a == [] {
      AppendEmpty(b);
      if FilterMethod(b, m).Success? {
        AppendEmpty(FilterMethod(b, m).value);
      }
    } else {
      ConsAppend(a, b);
      FilterAppend(a[1..], b, m);
      if MethodIs(a[0], m).Success? && FilterMethod(a[1..], m).Success? && FilterMethod(b, m).Success? {
        var k := if MethodIs(a[0], m).value then [a[0]] else [];
        AppendAssoc(k, FilterMethod(a[1..], m).value, FilterMethod(b, m).value);
      }
    }
  }

  /** What the `try` block of `check_logs` concludes about one IP. */
  datatype IpVerdict =
    | NoRecords                         // `if not requests: continue`
    | Aborted(error: ScanError)         // an exception, caught and reported
    | Evaluated(getViolations: seq<Violation>, postViolations: seq<Violation>)

  /** The `try` block on one IP's records, up to the calls of `add_to_blacklist`. */
  function Evaluate(requests: seq<Json>): (r: IpVerdict)
    ensures r.NoRecords? <==> requests == []
  {
    if requests == [] then NoRecords
    else
      match FilterMethod(requests, "GET")
      case Failure(e) => Aborted(e)
      case Success(gets) =>
        match RateViolations(gets, DefaultThreshold)
        case Failure(e) => Aborted(e)
        case Success(gv) =>
          match FilterMethod(requests, "POST")
          case Failure(e) => Aborted(e)
          case Success(posts) =>
            match RateViolations(posts, DefaultThreshold)
            case Failure(e) => Aborted(e)
            case Success(pv) => Evaluated(gv, pv)
  }

  /** The IP's records get it blocked: the pass completed for it and found a violation. */
  predicate Offends(v: IpVerdict) {
    v.Evaluated? && (v.getViolations != [] || v.postViolations != [])
  }

  /** Some second holds more than the threshold of these requests. */
  ghost predicate Burst(rs: seq<Json>) {
    exists t :: Bucket(rs, t) != [] && |Bucket(rs, t)| > DefaultThreshold
  }

  /** The detector reports a violation exactly when there is a burst. */
  lemma BurstIff(rs: seq<Json>)
    requires RateViolations(rs, DefaultThreshold).Success?
    ensures RateViolations(rs, DefaultThreshold).value != [] <==> Burst(rs)
  {
    ViolationsExist(rs, DefaultThreshold);
    if Burst(rs) {
      var t :| Bucket(rs, t) != [] && |Bucket(rs, t)| > DefaultThreshold;
      assert exists u :: Bucket(rs, u) != [] && |Bucket(rs, u)| > DefaultThreshold;
    }
  }

  /**
   * An IP offends exactly when no record raises (every record is an object
   * with a `method`, every GET and POST record has a parseable timestamp)
   * and its GET records or its POST records hold a burst.
   */
  lemma OffendsIff(requests: seq<Json>)
    ensures Offends(Evaluate(requests)) <==>
      && FilterMethod(requests, "GET").Success?
      && FilterMethod(requests, "POST").Success?
      && RateViolations(FilterMethod(requests, "GET").value, DefaultThreshold).Success?
      && RateViolations(FilterMethod(requests, "POST").value, DefaultThreshold).Success?
      && (Burst(FilterMethod(requests, "GET").value) || Burst(FilterMethod(requests, "POST").value))
  {
    var g, p := FilterMethod(requests, "GET"), FilterMethod(requests, "POST");
    if requests == [] {
      assert g == Success([]) && p == Success([]);
      assert RateViolations([], DefaultThreshold) == Success([]);
      assert !Burst([]) by {
        forall t ensures Bucket([], t) == [] { }
      }
    } else if g.Failure? || RateViolations(g.value, DefaultThreshold).Failure? {
    } else if p.Failure? || RateViolations(p.value, DefaultThreshold).Failure? {
    } else {
      BurstIff(g.value);
      BurstIff(p.value);
      assert Evaluate(requests) == Evaluated(RateViolations(g.value, DefaultThreshold).value,
                                             RateViolations(p.value, DefaultThreshold).value);
    }
  }

  /**
   * Records whose method is neither GET nor POST are never evaluated: adding
   * one anywhere in a log, whatever its timestamp, does not change whether
   * the IP gets blocked.
   */
  lemma OtherMethodIgnored(a: seq<Json>, d: Json, b: seq<Json>)
    requires MethodIs(d, "GET") == Success(false) && MethodIs(d, "POST") == Success(false)
    ensures Offends(Evaluate(a + [d] + b)) <==> Offends(Evaluate(a + b))
  {
    var with, without := a + [d] + b, a + b;
    FilterSkip(a, d, b, "GET");
    FilterSkip(a, d, b, "POST");
    assert with != [] by { assert |with| == |a| + 1 + |b|; }
    if without == [] {
      assert FilterMethod(with, "GET") == Success([]) && FilterMethod(with, "POST") == Success([]);
      assert Evaluate(with) == Evaluated([], []);
    } else {
      assert Evaluate(with) == Evaluate(without);
    }
  }

  /** A record of another method leaves the filter's outcome unchanged. */
  lemma FilterSkip(a: seq<Json>, d: Json, b: seq<Json>, m: string)
    requires MethodIs(d, m) == Success(false)
    ensures FilterMethod(a + [d] + b, m) == FilterMethod(a + b, m)
    ensures FilterMethod([d], m) == Success([])
  {
    assert [d][1..] == [];
    assert FilterMethod([d], m).Success? && FilterMethod([d], m).value == [];
    FilterAppend(a + [d], b, m);
    FilterAppend(a, [d], m);
    FilterAppend(a, b, m);
    if FilterMethod(a, m).Success? {
      assert FilterMethod(a, m).value + [] == FilterMethod(a, m).value;
    }
  }

  /** The `add_to_blacklist` calls for a verdict: one per violating subset, GET first. */
  function ApplyVerdict(f: TextFile, ip: string, v: IpVerdict): (r: TextFile)
    ensures Extends(r, f)
    ensures !v.Evaluated? ==> r == f
  {
    match v
    case Evaluated(gv, pv) =>
      var afterGet := if gv != [] then AddEntry(f, ip) else f;
      if pv != [] then AddEntry(afterGet, ip) else afterGet
    case _ => f
  }

  /** The effect on the blocklist file of the pass over one directory entry. */
  function ScanIp(f: TextFile, ip: string, logs: map<string, seq<string>>, decode: string -> Option<Json>): (r: TextFile)
    ensures Extends(r, f)
  {
    if ip !in logs then f else ApplyVerdict(f, ip, Evaluate(ParseLog(logs[ip], decode)))
  }

  /** The effect on the blocklist file of a pass over `entries`, in listing order. */
  function ScanFile(f: TextFile, entries: seq<string>, logs: map<string, seq<string>>,
                    decode: string -> Option<Json>): (r: TextFile)
    ensures Extends(r, f)
  {
    if entries == [] then f
    else ScanIp(ScanFile(f, entries[..|entries| - 1], logs, decode), entries[|entries| - 1], logs, decode)
  }

  /** The IPs among `entries` whose records offend, collected in listing order. */
  function Offenders(entries: seq<string>, logs: map<string, seq<string>>, decode: string -> Option<Json>): set<string>
  {
    if entries == [] then {}
    else Offenders(entries[..|entries| - 1], logs, decode) + OffenderSet(entries[|entries| - 1], logs, decode)
  }

  /**
   * One entry's pass adds at most one line, even when both its GET and its
   * POST records violate: the second `add_to_blacklist` finds the IP loaded.
   * An IP with no records, or whose evaluation raised, leaves the file as it was.
   */
  lemma ScanIpEffect(f: TextFile, ip: string, logs: map<string, seq<string>>, decode: string -> Option<Json>)
    requires Terminated(f) && Clean(ip)
    ensures ScanIp(f, ip, logs, decode) ==
      if ip in logs && Offends(Evaluate(ParseLog(logs[ip], decode))) then AddEntry(f, ip) else f
  {
    if ip in logs {
      ApplyVerdictEffect(f, ip, Evaluate(ParseLog(logs[ip], decode)));
    }
  }

  /** Both subsets violating still appends one line: the second call finds the IP loaded. */
  lemma ApplyVerdictEffect(f: TextFile, ip: string, v: IpVerdict)
    requires Terminated(f) && Clean(ip)
    ensures ApplyVerdict(f, ip, v) == if Offends(v) then AddEntry(f, ip) else f
  {
    AddEntryIdempotent(f, ip);
  }

  /** `{ip}` when the IP's records offend, `{}` otherwise. */
  function OffenderSet(ip: string, logs: map<string, seq<string>>, decode: string -> Option<Json>): set<string>
  {
    if ip in logs && Offends(Evaluate(ParseLog(logs[ip], decode))) then {ip} else {}
  }

  /** One entry's pass adds that IP to the loaded blocklist exactly when its records offend. */
  lemma ScanIpLoad(f: TextFile, ip: string, logs: map<string, seq<string>>, decode: string -> Option<Json>)
    requires Terminated(f) && Clean(ip)
    ensures var g := ScanIp(f, ip, logs, decode);
      LoadBlacklist(g) == LoadBlacklist(f) + OffenderSet(ip, logs, decode) && Terminated(g)
  {
    ScanIpEffect(f, ip, logs, decode);
    AddEntryIdempotent(f, ip);
  }

  /**
   * After a pass over a terminated blocklist and clean directory names, the
   * loaded blocklist is the old one plus exactly the offending IPs: an IP is
   * blocked afterwards iff it was before or its GET or POST records hold a
   * burst. The file stays terminated for the next pass.
   */
  lemma {:induction false} ScanBlocksOffenders(f: TextFile, entries: seq<string>, logs: map<string, seq<string>>,
                                                decode: string -> Option<Json>)
    requires Terminated(f)
    requires forall i :: 0 <= i < |entries| ==> Clean(entries[i])
    ensures var g := ScanFile(f, entries, logs, decode);
      LoadBlacklist(g) == LoadBlacklist(f) + Offenders(entries, logs, decode) && Terminated(g)
  {
    if entries != [] {
      var init, ip := entries[..|entries| - 1], entries[|entries| - 1];
      assert forall i :: 0 <= i < |init| ==> Clean(init[i]) by {
        assert forall i :: 0 <= i < |init| ==> init[i] == entries[i];
      }
      var before := ScanFile(f, init, logs, decode);
      ScanBlocksOffenders(f, init, logs, decode);
      ScanIpLoad(before, ip, logs, decode);
      ScanFileSnoc(f, entries, logs, decode);
    }
  }

  /** The pass over the first `k + 1` entries, as the loop over the directory listing takes it. */
  lemma ScanFileStep(f: TextFile, entries: seq<string>, k: int, logs: map<string, seq<string>>,
                     decode: string -> Option<Json>)
    requires 0 <= k < |entries|
    ensures ScanFile(f, entries[..k + 1], logs, decode) == ScanIp(ScanFile(f, entries[..k], logs, decode), entries[k], logs, decode)
  {
    PrefixSnoc(entries, k);
    ScanFileSnoc(f, entries[..k + 1], logs, decode);
  }

  /** A pass over one more entry is the pass over the others, then that entry's. */
  lemma ScanFileSnoc(f: TextFile, entries: seq<string>, logs: map<string, seq<string>>,
                     decode: string -> Option<Json>)
    requires entries != []
    ensures var init, ip := entries[..|entries| - 1], entries[|entries| - 1];
      && ScanFile(f, entries, logs, decode) == ScanIp(ScanFile(f, init, logs, decode), ip, logs, decode)
      && Offenders(entries, logs, decode) == Offenders(init, logs, decode) + OffenderSet(ip, logs, decode)
  {
  }

  /** The offenders are exactly the listed IPs that have a log whose records offend. */
  lemma {:induction false} OffendersMembers(entries: seq<string>, logs: map<string, seq<string>>,
                                             decode: string -> Option<Json>, ip: string)
    ensures ip in Offenders(entries, logs, decode) <==>
      ip in entries && ip in logs && Offends(Evaluate(ParseLog(logs[ip], decode)))
  {
    if entries != [] {
      var init := entries[..|entries| - 1];
      OffendersMembers(init, logs, decode, ip);
      SplitLast(entries);
    }
  }

  /** A record whose `method` field is the string `m`. */
  predicate HasMethod(d: Json, m: string) {
    d.JObject? && "method" in d.fields && d.fields["method"] == JString(m)
  }

  /** A run of GET or POST records in one second is all of that method's records, and no record of the other. */
  lemma {:induction false} FilterUniform(rs: seq<Json>, m: string, other: string)
    requires m != other
    requires forall i :: 0 <= i < |rs| ==> HasMethod(rs[i], m)
    ensures FilterMethod(rs, m) == Success(rs) && FilterMethod(rs, other) == Success([])
  {
    if rs != [] {
      assert forall i :: 0 <= i < |rs[1..]| ==> rs[1..][i] == rs[i + 1];
      FilterUniform(rs[1..], m, other);
      assert MethodIs(rs[0], m) == Success(true) && MethodIs(rs[0], other) == Success(false);
      assert FilterMethod(rs, m).Success? && FilterMethod(rs, m).value == [rs[0]] + rs[1..] == rs;
      assert FilterMethod(rs, other).Success? && FilterMethod(rs, other).value == [];
    }
  }

  /**
   * Method isolation: more than 20 GET and more than 20 POST records in the
   * same second are two independent violations, each reported with its
   * full count.
   */
  lemma GetAndPostBurst(gets: seq<Json>, posts: seq<Json>, t: Stamp)
    requires |gets| > DefaultThreshold && |posts| > DefaultThreshold
    requires forall i :: 0 <= i < |gets| ==> HasMethod(gets[i], "GET") && StampOf(gets[i]) == Success(t)
    requires forall i :: 0 <= i < |posts| ==> HasMethod(posts[i], "POST") && StampOf(posts[i]) == Success(t)
    ensures Evaluate(gets + posts) == Evaluated([Violation(t, |gets|, gets)], [Violation(t, |posts|, posts)])
  {
    FilterSplit(gets, posts);
    OneSecondBurst(gets, t, DefaultThreshold);
    OneSecondBurst(posts, t, DefaultThreshold);
  }

  /** Filtering GET records followed by POST records splits them back apart. */
  lemma FilterSplit(gets: seq<Json>, posts: seq<Json>)
    requires forall i :: 0 <= i < |gets| ==> HasMethod(gets[i], "GET")
    requires forall i :: 0 <= i < |posts| ==> HasMethod(posts[i], "POST")
    ensures FilterMethod(gets + posts, "GET") == Success(gets)
    ensures FilterMethod(gets + posts, "POST") == Success(posts)
  {
    FilterUniform(gets, "GET", "POST");
    FilterUniform(posts, "POST", "GET");
    FilterAppend(gets, posts, "GET");
    FilterAppend(gets, posts, "POST");
    assert gets + [] == gets && [] + posts == posts;
  }

  /**
   * The scan's evaluation of one IP, the statements of the `try` block that
   * precede the calls of `add_to_blacklist`.
   */
  method EvaluateIp(requests: seq<Json>) returns (v: IpVerdict)
    ensures v == Evaluate(requests)
  {
    if |requests| == 0 {
      return NoRecords;
    }
    var gets := FilterMethod(requests, "GET");
    if gets.Failure? {
      return Aborted(gets.error);
    }
    var gv := CheckRateLimits(gets.value, DefaultThreshold);
    if gv.Failure? {
      return Aborted(gv.error);
    }
    var posts := FilterMethod(requests, "POST");
    if posts.Failure? {
      return Aborted(posts.error);
    }
    var pv := CheckRateLimits(posts.value, DefaultThreshold);
    if pv.Failure? {
      return Aborted(pv.error);
    }
    return Evaluated(gv.value, pv.value);
  }

  /**
   * `check_logs()`: `entries` is the listing of the log directory in the
   * order `os.listdir` returns it, and `logs` maps every entry that is a
   * directory holding `client_info.json` to that file's lines.
   */
  method CheckLogs(store: BlocklistStore, entries: seq<string>, logs: map<string, seq<string>>,
                   decode: string -> Option<Json>)
    requires store.Valid()
    modifies store
    ensures store.Valid()
    ensures store.file == ScanFile(old(store.file), entries, logs, decode)
  {
    var k := 0;
    while k < |entries|
      invariant 0 <= k <= |entries|
      invariant store.Valid()
      invariant store.file == ScanFile(old(store.file), entries[..k], logs, decode)
    {
      var ip := entries[k];
      ghost var before := store.file;
      ScanFileStep(old(store.file), entries, k, logs, decode);
      if ip in logs {
        var requests := DecodeLog(logs[ip], decode);
        var verdict := EvaluateIp(requests);
        if verdict.Evaluated? {
          if verdict.getViolations != [] {
            var _ := store.Add(ip);
          }
          if verdict.postViolations != [] {
            var _ := store.Add(ip);
          }
        }
        assert store.file == ApplyVerdict(before, ip, verdict);
      }
      k := k + 1;
    }
    PrefixAll(entries);
  }
}

=== FILE: seqs.dfy ===
/**
 * Facts about sequence concatenation, each stated once on its own so that
 * the proofs using them do not rediscover them among many other facts.
 */
module Seqs {
  /** A non-empty sequence is its prefix followed by its last element. */
  lemma SplitLast<T>(s: seq<T>)
    requires s != []
    ensures s[..|s| - 1] + [s[|s| - 1]] == s
  {
  }

  /** The head and tail of a concatenation whose first part is non-empty. */
  lemma ConsAppend<T>(a: seq<T>, b: seq<T>)
    requires a != []
    ensures (a + b)[0] == a[0] && (a + b)[1..] == a[1..] + b
  {
  }

  lemma AppendAssoc<T>(a: seq<T>, b: seq<T>, c: seq<T>)
    ensures a + (b + c) == (a + b) + c
  {
  }

  lemma AppendEmpty<T>(a: seq<T>)
    ensures [] + a == a && a + [] == a
  {
  }

  /** Extending a prefix by one element. */
  lemma PrefixSnoc<T>(s: seq<T>, i: int)
    requires 0 <= i < |s|
    ensures s[..i + 1] == s[..i] + [s[i]] && s[..i + 1][..i] == s[..i]
  {
  }

  lemma PrefixAll<T>(s: seq<T>)
    ensures s[..|s|] == s
  {
  }

  /** A prefix of a prefix is a prefix. */
  lemma PrefixOfPrefix<T>(a: seq<T>, b: seq<T>, c: seq<T>)
    requires |a| <= |b| <= |c| && b[..|a|] == a && c[..|b|] == b
    ensures c[..|a|] == a
  {
    assert c[..|a|] == c[..|b|][..|a|];
  }

  /** Dropping the last element of a concatenation whose second part is non-empty. */
  lemma DropLastAppend<T>(a: seq<T>, b: seq<T>)
    requires b != []
    ensures (a + b)[..|a + b| - 1] == a + b[..|b| - 1] && (a + b)[|a + b| - 1] == b[|b| - 1]
  {
  }

  /** Dropping the element just appended. */
  lemma DropSnoc<T>(a: seq<T>, x: T)
    ensures (a + [x])[..|a + [x]| - 1] == a && (a + [x])[|a|] == x
  {
  }

  /** A slice of a suffix is a slice of the whole. */
  lemma SliceOfSuffix<T>(s: seq<T>, i: int, j: int)
    requires 0 <= i <= |s| && 0 <= j <= |s| - i
    ensures s[i..][..j] == s[i..i + j] && s[i..][j..] == s[i + j..]
  {
  }

  /** A prefix of `s` that keeps its first element, seen from the tail. */
  lemma PrefixCons<T>(s: seq<T>, i: int)
    requires 0 <= i < |s|
    ensures s[..i + 1] == [s[0]] + s[1..][..i] && s[1..][i..] == s[i + 1..]
  {
  }

  /** The slices of a prefix of `s`. */
  lemma PrefixOfTake<T>(s: seq<T>, n: int, j: int)
    requires 0 <= j <= n <= |s|
    ensures s[..n][..j] == s[..j] && s[..n][j..] == s[j..n]
  {
  }

  /** A suffix of a non-empty `s` is the slice up to its last element, then that element. */
  lemma SuffixSplitLast<T>(s: seq<T>, j: int)
    requires 0 <= j < |s|
    ensures s[j..] == s[j..|s| - 1] + [s[|s| - 1]]
  {
  }
}

=== FILE: text.dfy ===
/**
 * The two pieces of Python string handling the core relies on:
 * `str.strip()` with no argument, and the line boundaries seen when a
 * text file is iterated in universal-newline mode.
 */
module Text {
  import opened Seqs

  /** Python's `str.isspace` for one character: the characters `strip()` removes. */
  predicate IsSpace(c: char) {
    c == ' ' || c == '\t' || c == '\n' || c == '\r' || c == '\U{000B}' || c == '\U{000C}'
    || ('\U{001C}' <= c <= '\U{001F}') || c == '\U{0085}' || c == '\U{00A0}' || c == '\U{1680}'
    || ('\U{2000}' <= c <= '\U{200A}') || c == '\U{2028}' || c == '\U{2029}'
    || c == '\U{202F}' || c == '\U{205F}' || c == '\U{3000}'
  }

  /** A line boundary in universal-newline mode (`\n`, `\r`, and `\r\n` as two of them). */
  predicate IsBreak(c: char) {
    c == '\n' || c == '\r'
  }

  function StripLeft(s: string): (r: string)
    ensures |r| <= |s|
  {
    if s == [] || !IsSpace(s[0]) then s else StripLeft(s[1..])
  }

  function StripRight(s: string): (r: string)
    ensures |r| <= |s|
  {
    if s == [] || !IsSpace(s[|s| - 1]) then s else StripRight(s[..|s| - 1])
  }

  /** Python's `s.strip()`: `s` without its leading and trailing whitespace. */
  function Strip(s: string): (r: string)
    ensures |r| <= |s|
  {
    StripRight(StripLeft(s))
  }

  lemma {:induction false} StripLeftEnds(s: string)
    ensures var r := StripLeft(s); r == [] || !IsSpace(r[0])
  {
    if s != [] && IsSpace(s[0]) {
      StripLeftEnds(s[1..]);
    }
  }

  lemma {:induction false} StripRightEnds(s: string)
    ensures var r := StripRight(s);
      (r == [] || !IsSpace(r[|r| - 1])) && (r == [] || r[0] == s[0])
  {
    if s != [] && IsSpace(s[|s| - 1]) {
      StripRightEnds(s[..|s| - 1]);
    }
  }

  /** Every character of `s` is whitespace. */
  predicate AllSpace(s: string) {
    forall k :: 0 <= k < |s| ==> IsSpace(s[k])
  }

  lemma AllSpaceCons(c: char, a: string)
    requires IsSpace(c) && AllSpace(a)
    ensures AllSpace([c] + a)
  {
    assert forall k :: 0 < k <= |a| ==> ([c] + a)[k] == a[k - 1];
  }

  lemma AllSpaceSnoc(a: string, c: char)
    requires AllSpace(a) && IsSpace(c)
    ensures AllSpace(a + [c])
  {
    assert forall k :: 0 <= k < |a| ==> (a + [c])[k] == a[k];
  }

  /** `StripLeft` drops a prefix of whitespace and nothing else. */
  lemma {:induction false} StripLeftDrops(s: string)
    ensures exists i :: 0 <= i <= |s| && StripLeft(s) == s[i..] && AllSpace(s[..i])
  {
    if s != [] && IsSpace(s[0]) {
      StripLeftDrops(s[1..]);
      var i :| 0 <= i <= |s| - 1 && StripLeft(s[1..]) == s[1..][i..] && AllSpace(s[1..][..i]);
      PrefixCons(s, i);
      AllSpaceCons(s[0], s[1..][..i]);
      assert StripLeft(s) == s[i + 1..] && AllSpace(s[..i + 1]);
    } else {
      assert StripLeft(s) == s[0..] && AllSpace(s[..0]);
    }
  }

  /** `StripRight` drops a suffix of whitespace and nothing else. */
  lemma {:induction false} StripRightDrops(s: string)
    ensures exists j :: 0 <= j <= |s| && StripRight(s) == s[..j] && AllSpace(s[j..])
  {
    if s != [] && IsSpace(s[|s| - 1]) {
      var n := |s| - 1;
      StripRightDrops(s[..n]);
      var j :| 0 <= j <= n && StripRight(s[..n]) == s[..n][..j] && AllSpace(s[..n][j..]);
      PrefixOfTake(s, n, j);
      SuffixSplitLast(s, j);
      AllSpaceSnoc(s[j..n], s[n]);
      assert StripRight(s) == s[..j] && AllSpace(s[j..]);
    } else {
      PrefixAll(s);
      assert StripRight(s) == s[..|s|] && AllSpace(s[|s|..]);
    }
  }

  /**
   * `Strip(s)` is a slice of `s` with only whitespace cut off at either end;
   * with `StripEnds` this pins it down: the ends removed are all of the
   * leading and trailing whitespace, so `" 1.2.3.4\n"` strips to `"1.2.3.4"`.
   */
  lemma StripDropsOnlyEnds(s: string)
    ensures exists i, j :: 0 <= i <= j <= |s| && Strip(s) == s[i..j] && AllSpace(s[..i]) && AllSpace(s[j..])
  {
    StripLeftDrops(s);
    var i :| 0 <= i <= |s| && StripLeft(s) == s[i..] && AllSpace(s[..i]);
    StripRightDrops(s[i..]);
    var j :| 0 <= j <= |s| - i && StripRight(s[i..]) == s[i..][..j] && AllSpace(s[i..][j..]);
    SliceOfSuffix(s, i, j);
    assert Strip(s) == s[i..i + j] && AllSpace(s[i + j..]);
  }

  /** `Strip` leaves no whitespace at either end of its result. */
  lemma StripEnds(s: string)
    ensures var r := Strip(s); r == [] || (!IsSpace(r[0]) && !IsSpace(r[|r| - 1]))
  {
    StripLeftEnds(s);
    StripRightEnds(StripLeft(s));
  }

  /** A string with no whitespace at either end is its own strip. */
  lemma StripOfStripped(s: string)
    requires s == [] || (!IsSpace(s[0]) && !IsSpace(s[|s| - 1]))
    ensures Strip(s) == s
  {
  }

  /** Stripping twice is stripping once. */
  lemma StripIdempotent(s: string)
    ensures Strip(Strip(s)) == Strip(s)
  {
    StripEnds(s);
    StripOfStripped(Strip(s));
  }

  /**
   * The pieces of a text between line boundaries, in order: `k` boundaries
   * give `k + 1` pieces, so a text ending in a boundary has an empty last piece.
   * Iterating the file yields the same lines with their terminators, which
   * `strip()` removes. `Pieces` also yields an empty piece between `\r` and
   * `\n` and after a final break; both strip to nothing.
   */
  function Pieces(s: string): (ps: seq<string>)
    ensures |ps| >= 1
  {
    if s == [] then [""]
    else
      var rest := Pieces(s[1..]);
      if IsBreak(s[0]) then [""] + rest else [[s[0]] + rest[0]] + rest[1..]
  }

  /** A text with no line boundary is a single piece. */
  lemma {:induction false} PiecesOfLine(s: string)
    requires forall i :: 0 <= i < |s| ==> !IsBreak(s[i])
    ensures Pieces(s) == [s]
  {
    if s != [] {
      PiecesOfLine(s[1..]);
      assert [s[0]] + s[1..] == s;
    }
  }

  /** No piece holds a line boundary: the boundaries are exactly what separates them. */
  lemma {:induction false} PiecesBreakFree(s: string)
    ensures forall p :: p in Pieces(s) ==> forall k :: 0 <= k < |p| ==> !IsBreak(p[k])
  {
    if s != [] {
      PiecesBreakFree(s[1..]);
      var rest := Pieces(s[1..]);
      if !IsBreak(s[0]) {
        var first := [s[0]] + rest[0];
        assert rest[0] in rest;
        forall k | 0 <= k < |first| ensures !IsBreak(first[k]) {
          if k > 0 { assert first[k] == rest[0][k - 1]; }
        }
        assert forall p :: p in rest[1..] ==> p in rest;
      }
    }
  }

  /** The line boundaries of `s`, in order. */
  function Breaks(s: string): (bs: string)
    ensures forall k :: 0 <= k < |bs| ==> IsBreak(bs[k])
  {
    if s == [] then [] else if IsBreak(s[0]) then [s[0]] + Breaks(s[1..]) else Breaks(s[1..])
  }

  /** The pieces `ps` written out with the boundary `bs[i]` between pieces `i` and `i + 1`. */
  function JoinWith(ps: seq<string>, bs: string): string
    requires |ps| == |bs| + 1
    decreases |bs|
  {
    if bs == [] then ps[0] else ps[0] + [bs[0]] + JoinWith(ps[1..], bs[1..])
  }

  /**
   * The pieces are the text cut at its line boundaries: one more piece than
   * boundaries, and putting the boundaries back between them gives the text.
   */
  lemma {:induction false} PiecesJoin(s: string)
    ensures |Pieces(s)| == |Breaks(s)| + 1 && JoinWith(Pieces(s), Breaks(s)) == s
  {
    if s != [] {
      var t := s[1..];
      PiecesJoin(t);
      var rest, bt := Pieces(t), Breaks(t);
      assert [s[0]] + t == s;
      if IsBreak(s[0]) {
        assert ([""] + rest)[1..] == rest;
        assert ([s[0]] + bt)[1..] == bt;
      } else {
        var ps := [[s[0]] + rest[0]] + rest[1..];
        assert ps[1..] == rest[1..];
        if bt != [] {
          assert t == rest[0] + [bt[0]] + JoinWith(rest[1..], bt[1..]);
          AppendAssoc([s[0]], rest[0] + [bt[0]], JoinWith(rest[1..], bt[1..]));
          AppendAssoc([s[0]], rest[0], [bt[0]]);
        }
      }
    }
  }

  /**
   * A single line with its terminator, `\n` or `\r`, is that line followed
   * by an empty piece.
   */
  lemma {:induction false} PiecesOfTerminatedLine(s: string, c: char)
    requires IsBreak(c)
    requires forall i :: 0 <= i < |s| ==> !IsBreak(s[i])
    ensures Pieces(s + [c]) == [s, ""]
  {
    if s == [] {
      assert s + [c] == [c];
    } else {
      assert (s + [c])[1..] == s[1..] + [c];
      PiecesOfTerminatedLine(s[1..], c);
      assert [s[0]] + s[1..] == s;
    }
  }

  /** The sequence algebra behind one inductive step of `PiecesAppendTerminated`. */
  lemma PiecesStep(c: char, pt: seq<string>, pb: seq<string>, pa: seq<string>, pab: seq<string>, rest: seq<string>)
    requires |pt| >= 2 && pt[|pt|-1] == "" && |pb| >= 1
    requires rest == pt[..|pt| - 1] + pb
    requires pa == (if IsBreak(c) then [""] + pt else [[c] + pt[0]] + pt[1..])
    requires pab == (if IsBreak(c) then [""] + rest else [[c] + rest[0]] + rest[1..])
    ensures |pa| >= 2 && pa[|pa| - 1] == "" && pab == pa[..|pa| - 1] + pb
  {
    var init := pt[..|pt| - 1];
    SplitLast(pt);
    var front := if IsBreak(c) then [""] else [[c] + pt[0]];
    var body := if IsBreak(c) then init else init[1..];
    if IsBreak(c) {
      assert pab == front + (body + pb);
    } else {
      ConsAppend(init, pb);
      ConsAppend(init, [""]);
      assert pab == front + (body + pb);
    }
    assert pa == front + (body + [""]);
    AppendAssoc(front, body, [""]);
    DropSnoc(front + body, "");
    AppendAssoc(front, body, pb);
  }

  /**
   * When the first text ends with a line boundary, the pieces of the two texts
   * simply concatenate (the first text's empty last piece is dropped): this is
   * what appending whole lines to a well-terminated file does.
   */
  lemma {:induction false} PiecesAppendTerminated(a: string, b: string)
    requires a != [] && IsBreak(a[|a| - 1])
    ensures var pa := Pieces(a);
      |pa| >= 2 && pa[|pa| - 1] == "" && Pieces(a + b) == pa[..|pa| - 1] + Pieces(b)
  {
    var t := a[1..];
    ConsAppend(a, b);
    if |a| == 1 {
      AppendEmpty(b);
      assert t == [];
    } else {
      PiecesAppendTerminated(t, b);
      PiecesStep(a[0], Pieces(t), Pieces(b), Pieces(a), Pieces(a + b), Pieces(t + b));
    }
  }
}

=== FILE: timestamps.dfy ===
/**
 * Request timestamps at one-second resolution. The recorder writes them with
 * `strftime("%Y-%m-%d %H:%M:%S")` and the scanner reads them back with
 * `strptime` in the same format; the scanner's bucket key is the parsed value.
 */
module Timestamps {
  import opened Wrappers

  /** A calendar second: the tuple `strptime` produces. */
  datatype Stamp = Stamp(year: int, month: int, day: int, hour: int, minute: int, second: int)

  predicate IsLeapYear(y: int) {
    y % 4 == 0 && (y % 100 != 0 || y % 400 == 0)
  }

  function DaysInMonth(y: int, m: int): (d: int)
    requires 1 <= m <= 12
    ensures 28 <= d <= 31
  {
    if m == 2 then (if IsLeapYear(y) then 29 else 28)
    else if m == 4 || m == 6 || m == 9 || m == 11 then 30
    else 31
  }

  /** The seconds a `datetime` can hold: years 1 to 9999, real calendar days, no leap second. */
  predicate Valid(t: Stamp) {
    && 1 <= t.year <= 9999
    && 1 <= t.month <= 12
    && 1 <= t.day <= DaysInMonth(t.year, t.month)
    && 0 <= t.hour < 24
    && 0 <= t.minute < 60
    && 0 <= t.second < 60
  }

  predicate IsDigit(c: char) {
    '0' <= c <= '9'
  }

  function DigitValue(c: char): (n: int)
    requires IsDigit(c)
    ensures 0 <= n < 10
  {
    c as int - '0' as int
  }

  function DigitChar(n: int): (c: char)
    requires 0 <= n < 10
    ensures IsDigit(c) && DigitValue(c) == n
  {
    ('0' as int + n) as char
  }

  /** The positions of the separators in `YYYY-MM-DD HH:MM:SS`. */
  predicate IsSeparatorPosition(i: int) {
    i == 4 || i == 7 || i == 10 || i == 13 || i == 16
  }

  /** `s` has the shape `DDDD-DD-DD DD:DD:DD` with ASCII digits. */
  predicate WellShaped(s: string) {
    && |s| == 19
    && s[4] == '-' && s[7] == '-' && s[10] == ' ' && s[13] == ':' && s[16] == ':'
    && forall i :: 0 <= i < 19 && !IsSeparatorPosition(i) ==> IsDigit(s[i])
  }

  /** The two-digit number at `s[i..i + 2]`. */
  function TwoDigits(s: string, i: nat): (n: int)
    requires i + 2 <= |s| && IsDigit(s[i]) && IsDigit(s[i + 1])
    ensures 0 <= n < 100
  {
    10 * DigitValue(s[i]) + DigitValue(s[i + 1])
  }

  /**
   * `datetime.strptime(s, "%Y-%m-%d %H:%M:%S")` for the text the recorder
   * writes: `None` stands for the `ValueError` raised on text of another
   * shape or on a date the calendar does not have (February 30, second 60).
   */
  function ParseTimestamp(s: string): (r: Option<Stamp>)
    ensures r.Some? ==> Valid(r.value)
  {
    if !WellShaped(s) then None
    else
      var t := Stamp(100 * TwoDigits(s, 0) + TwoDigits(s, 2), TwoDigits(s, 5), TwoDigits(s, 8),
                     TwoDigits(s, 11), TwoDigits(s, 14), TwoDigits(s, 17));
      if Valid(t) then Some(t) else None
  }

  function TwoDigitText(n: int): (s: string)
    requires 0 <= n < 100
    ensures |s| == 2 && IsDigit(s[0]) && IsDigit(s[1]) && TwoDigits(s, 0) == n
  {
    [DigitChar(n / 10), DigitChar(n % 10)]
  }

  /** `strftime("%Y-%m-%d %H:%M:%S")`: zero-padded fields, four-digit year. */
  function FormatStamp(t: Stamp): (s: string)
    requires Valid(t)
    ensures WellShaped(s)
  {
    TwoDigitText(t.year / 100) + TwoDigitText(t.year % 100) + "-" + TwoDigitText(t.month)
    + "-" + TwoDigitText(t.day) + " " + TwoDigitText(t.hour) + ":" + TwoDigitText(t.minute)
    + ":" + TwoDigitText(t.second)
  }

  /** What the recorder writes, the scanner reads back as the same second. */
  lemma ParseFormat(t: Stamp)
    requires Valid(t)
    ensures ParseTimestamp(FormatStamp(t)) == Some(t)
  {
    var s := FormatStamp(t);
    FormatFields(t);
    TwoDigitsAt(s, 0, t.year / 100);
    TwoDigitsAt(s, 2, t.year % 100);
    TwoDigitsAt(s, 5, t.month);
    TwoDigitsAt(s, 8, t.day);
    TwoDigitsAt(s, 11, t.hour);
    TwoDigitsAt(s, 14, t.minute);
    TwoDigitsAt(s, 17, t.second);
  }

  /** Where each field sits in the formatted text. */
  lemma FormatFields(t: Stamp)
    requires Valid(t)
    ensures var s := FormatStamp(t);
      && s[0..2] == TwoDigitText(t.year / 100) && s[2..4] == TwoDigitText(t.year % 100)
      && s[5..7] == TwoDigitText(t.month) && s[8..10] == TwoDigitText(t.day)
      && s[11..13] == TwoDigitText(t.hour) && s[14..16] == TwoDigitText(t.minute)
      && s[17..19] == TwoDigitText(t.second)
  {
  }

  /** Two digits written at `i` read back as the number written. */
  lemma TwoDigitsAt(s: string, i: nat, n: int)
    requires 0 <= n < 100 && i + 2 <= |s| && s[i..i + 2] == TwoDigitText(n)
    ensures IsDigit(s[i]) && IsDigit(s[i + 1]) && TwoDigits(s, i) == n
  {
    assert s[i] == s[i..i + 2][0] && s[i + 1] == s[i..i + 2][1];
  }

  /** Two digits read and written back give the same two characters. */
  lemma TwoDigitsRoundTrip(s: string, i: nat)
    requires i + 2 <= |s| && IsDigit(s[i]) && IsDigit(s[i + 1])
    ensures TwoDigitText(TwoDigits(s, i)) == s[i..i + 2]
  {
    var a, b := DigitValue(s[i]), DigitValue(s[i + 1]);
    assert (10 * a + b) / 10 == a && (10 * a + b) % 10 == b;
  }

  /**
   * Every text the scanner accepts is exactly the text `strftime` makes of the
   * parsed second: grouping by the formatted key and by the parsed tuple agree.
   */
  lemma FormatParse(s: string)
    requires ParseTimestamp(s).Some?
    ensures FormatStamp(ParseTimestamp(s).value) == s
  {
    var t := ParseTimestamp(s).value;
    CenturySplit(TwoDigits(s, 0), TwoDigits(s, 2));
    TwoDigitsRoundTrip(s, 0);
    TwoDigitsRoundTrip(s, 2);
    TwoDigitsRoundTrip(s, 5);
    TwoDigitsRoundTrip(s, 8);
    TwoDigitsRoundTrip(s, 11);
    TwoDigitsRoundTrip(s, 14);
    TwoDigitsRoundTrip(s, 17);
    Reassemble(s);
    Assemble(t, s);
  }

  /** The text of a second whose digit pairs are those of `s`, joined by the separators. */
  lemma Assemble(t: Stamp, s: string)
    requires Valid(t) && |s| == 19
    requires TwoDigitText(t.year / 100) == s[0..2] && TwoDigitText(t.year % 100) == s[2..4]
    requires TwoDigitText(t.month) == s[5..7] && TwoDigitText(t.day) == s[8..10]
    requires TwoDigitText(t.hour) == s[11..13] && TwoDigitText(t.minute) == s[14..16]
    requires TwoDigitText(t.second) == s[17..19]
    ensures FormatStamp(t) == s[0..2] + s[2..4] + "-" + s[5..7] + "-" + s[8..10] + " " + s[11..13] + ":"
                              + s[14..16] + ":" + s[17..19]
  {
  }

  /** A four-digit year splits back into its century digits and its year-of-century digits. */
  lemma CenturySplit(hi: int, lo: int)
    requires 0 <= hi < 100 && 0 <= lo < 100
    ensures (100 * hi + lo) / 100 == hi && (100 * hi + lo) % 100 == lo
  {
  }

  /** A well-shaped text is its digit pairs joined by its separators. */
  lemma Reassemble(s: string)
    requires WellShaped(s)
    ensures s == s[0..2] + s[2..4] + "-" + s[5..7] + "-" + s[8..10] + " " + s[11..13] + ":"
                 + s[14..16] + ":" + s[17..19]
  {
  }

  /** Two parsed seconds have the same formatted key exactly when they are the same second. */
  lemma FormatInjective(t: Stamp, u: Stamp)
    requires Valid(t) && Valid(u)
    ensures FormatStamp(t) == FormatStamp(u) <==> t == u
  {
    if FormatStamp(t) == FormatStamp(u) {
      ParseFormat(t);
      ParseFormat(u);
    }
  }
}

=== FILE: wrappers.dfy ===
/** Option and Result datatypes shared by the model. */
module Wrappers {

  /** A value that may be missing: a decoded log line, a parsed timestamp, a hook's reply. */
  datatype Option<+T> = None | Some(value: T)

  /** The outcome of a computation that may raise one of the source's exceptions. */
  datatype Result<+R, +E> = Success(value: R) | Failure(error: E)
}
